=== FILE: README.md ===
# FlexLine stroke tessellation, modelled in Dafny

This project models the core of `bevy_polyline2d`: the `FlexLine` stroke and
its mesh builder `make_mesh` (src/flex_line.rs), together with the 2D helpers
it calls (src/vector_utils.rs). A `FlexLine` is a polyline with four settings:

- a width;
- an alignment, which splits the width between the two sides of the path;
- a corner style, either sharp (miter) or rounded (a fan of quads);
- a connection style, open or closed loop.

It also carries a colour: a fill, a gradient across the stroke, or one colour
per location.

`make_mesh` works in these steps:

1. It walks the locations one by one.
2. At each location it pushes pairs of vertices: the one on the left edge of
   the stroke first, then the one on the right edge.
3. It joins consecutive pairs with quads of two triangles.
4. An open path with rounded corners then gets a cap at each end: a fan of
   triangles around the stroke's centre at that end.
5. A connected path first pushes two placeholder slots. After the loop it
   moves its last pair into those slots.

The model is written over exact `real` arithmetic.

Modules:

- `Options`: the `Option` result type.
- `Geometry` (src/vector_utils.rs):
  - the orientation test;
  - line–line intersection;
  - the left and right offset segments;
  - projection of a point onto a line, including the three unit tests of the
    file as concrete lemmas.
- `Style`:
  - the colour sampler `LineColor::get`;
  - the alignment split;
  - `FlexLine::new`;
  - the wrap-around neighbour indices.
- `Buffers`: the three output buffers (vertices, indices, colours) and the
  quad index pattern `add_quad_indices`.
- `Corners`: `add_corner`, and through it `add_sharp_corner` and
  `add_rounded_corner`.
- `Caps`: `add_cap` and `calc_caps`.
- `Mesh`: `make_mesh`, including the closing step of a connected path.
- `MeshTheorems`: whole-mesh results. They cover vertex and index counts,
  colours in step with vertices, the quad structure (an open band or a closed
  ring), indices in bounds, and exactly when a connected mesh cannot be
  built.

Square roots and trigonometry are not modelled. Instead, a `Trig` value
supplies them:

- `invSqrt`, the reciprocal square root used by `normalize`;
- `originShift`, the offset `towards_origo * radius / sin(corner_angle / 2)`
  from the intersection of a rounded corner's offset edges to its arc's
  centre;
- the rotations used for rounded fan and cap vertices;
- the raw `fan_count` formula;
- the sine used for the cap colours.

The geometric lemmas state what holds when `invSqrt` is exact at the point of
use. The counting and index results hold for any `Trig` at all.

Two details of the code:

- `FlexLine::new` checks only the number of locations: at least two. It does
  not check that a per-vertex colour list covers every location, and a short
  list makes `LineColor::get` index past its end. The model's `Style.Valid`
  states that requirement for the mesh builder; `Style.New` does not check it.
- Every open path with rounded corners gets two caps, including one of just
  two locations (`MeshTheorems.RoundedOpenMesh`).

The caps are modelled as the code writes them. At a resolution of 8 or 9 each
cap misses one triangle; see "## Findings". `Caps.AddCap` is the corrected
cap, kept beside the as-written one to state what the fan should cover.

## Model

| member | source | states |
|---|---|---|
| Style.AlignmentSplitsWidth | src/flex_line.rs:73-90 | For every alignment the two side widths add up to the full width. For `Offset(d)` the right width exceeds the left by exactly 2d. `Center` splits evenly and equals `Offset(0)`. `LeftSide` and `RightSide` leave the other side empty. |
| Style.LeftWidth | src/flex_line.rs:74-81 | `Alignment::left_width`, one case per alignment. It has no contract of its own; `Style.AlignmentSplitsWidth` states what the two widths mean together. |
| Style.RightWidth | src/flex_line.rs:83-90 | `Alignment::right_width`, one case per alignment. It has no contract of its own; `Style.AlignmentSplitsWidth` relates it to `Style.LeftWidth`. |
| Style.Mix | src/flex_line.rs:60-64 | The stand-in for `Srgba::mix`, channel-wise linear interpolation. It has no contract of its own; `Style.MixProperties` states its endpoints and betweenness. |
| Style.MixProperties | src/flex_line.rs:60-64 | The colour mix returns the first colour at t = 0 and the second at t = 1. For t in [0, 1] every channel lies between the two colours' channels. |
| Style.Sample | src/flex_line.rs:54-69 | A fill ignores index and gradient. A per-vertex colour is the list entry at the index, and the index must be in range. A gradient gives the left colour at -1 and the right colour at +1, with every channel between the two in between. |
| Style.GradientCentreIsAverage | src/flex_line.rs:60-64 | The middle of a gradient (gradient 0) is the channel-wise average of the two colours. |
| Style.GradientMirror | src/flex_line.rs:60-64 | Swapping the gradient's two colours is the same as negating the gradient position. |
| Style.New | src/flex_line.rs:107-124 | Construction succeeds exactly when there are at least two locations (the source asserts this). It then stores every argument unchanged. |
| Style.NewIsValid | src/flex_line.rs:107-124 | A line built from at least two locations, with a per-vertex list covering them, is accepted by the mesh builder. |
| Style.ValidCanSample | src/flex_line.rs:65-68 | On an accepted line the colour can be sampled at every location. |
| Style.Wrap | src/flex_line.rs:141-155 | The wrap-around of an index is below the count. Below twice the count it subtracts the count at most once. |
| Style.WrapIsMod | src/flex_line.rs:143 | The wrap-around equals the remainder modulo the count, as `% len` computes. |
| Style.NextIdx | src/flex_line.rs:141-147 | Every result is a valid location. The next index is absent exactly at the last location of an open path. Elsewhere it is idx + 1, and it wraps to 0 on a connected path. |
| Style.PrevIdx | src/flex_line.rs:149-155 | Every result is a valid location. The previous index is absent exactly at location 0 of an open path. Elsewhere it is idx - 1, and it wraps to the last location on a connected path. |
| Style.NextPrevInverse | src/flex_line.rs:141-155 | `next(i) == j` exactly when `prev(j) == i`: the two are mutual inverses wherever defined. |
| Style.InteriorHasNeighbours | src/flex_line.rs:141-155 | A location has both neighbours exactly when the path is connected or the location is interior. |
| Geometry.OrientationTest | src/vector_utils.rs:11-22 | Left exactly when the signed area of the turn exceeds epsilon, Right exactly when it is below -epsilon, Straight exactly when its magnitude is at most epsilon. |
| Geometry.OrientationReversed | src/vector_utils.rs:11-22 | Walking the three points backwards swaps Left and Right and keeps Straight. |
| Geometry.CollinearIsStraight | src/vector_utils.rs:11-22 | A third point on the line through the first two gives Straight. |
| Geometry.IntersectionPoint | src/vector_utils.rs:26-46 | No intersection exactly when the magnitude of `perp_dot` of the directions is below 1e-10. Otherwise the point lies on both lines. |
| Geometry.IntersectionOnLines | src/vector_utils.rs:33-45 | The point p1 + t·d1, with the parameter t the function computes, lies on both lines. |
| Geometry.IntersectionUnique | src/vector_utils.rs:26-46 | When an intersection is returned, it is the only point on both lines. |
| Geometry.IdenticalLinesDoNotIntersect | src/vector_utils.rs:29-31 | A line does not intersect itself, because its direction is parallel to itself. |
| Geometry.TestIntersectionPerpendicular | src/vector_utils.rs:68-77 | The perpendicular-lines unit test: the intersection is (2, 0). |
| Geometry.TestIntersectionParallel | src/vector_utils.rs:79-88 | The parallel-lines unit test: there is no intersection. |
| Geometry.TestIntersectionDiagonal | src/vector_utils.rs:90-98 | The diagonal-lines unit test: the intersection is (1, 0). |
| Geometry.Normalize | src/vector_utils.rs:50 | `normalize`, with the reciprocal square root supplied by `Trig`. It has no contract of its own; `Geometry.NormalizeIsUnit` states that it gives a unit vector in the same direction. |
| Geometry.NormalizeIsUnit | src/vector_utils.rs:48-54 | With an exact square root, a normalized vector has length 1 and points the same way as the input. |
| Geometry.UnitPerp | src/vector_utils.rs:48-50 | `v.perp().normalize()`. It has no contract of its own; `Geometry.UnitPerpOdd` and `Geometry.UnitPerpIsUnitNormal` state its properties. |
| Geometry.UnitPerpOdd | src/vector_utils.rs:48-59 | Reversing a segment reverses its unit normal. |
| Geometry.UnitPerpIsUnitNormal | src/vector_utils.rs:48-54 | With an exact square root, the unit perpendicular has length 1, is orthogonal to the segment and lies to its left. |
| Geometry.LeftSideSegment | src/vector_utils.rs:48-54 | The left offset moves both endpoints by the same vector, `width` times the unit left normal. The result is therefore parallel to the segment and as long. |
| Geometry.RightSideSegment | src/vector_utils.rs:56-59 | The right offset moves both endpoints by minus `width` times the unit left normal, and keeps the segment's direction. |
| Geometry.SideSegmentsMirror | src/vector_utils.rs:48-59 | With equal widths the left and right offsets mirror each other through the segment: the two offset points of each endpoint average to that endpoint. |
| Geometry.LeftSideSegmentDistance | src/vector_utils.rs:48-54 | With an exact square root, the left offset lies exactly `width` away from the segment, perpendicular to it. |
| Geometry.ProjectPointOntoLine | src/vector_utils.rs:60-66 | No result exactly when the line's two points coincide. Otherwise the projection lies on the line, and the offset from it to the point is orthogonal to the line. |
| Geometry.ProjectionProperties | src/vector_utils.rs:60-66 | The computed foot point lies on the line, and the residual is orthogonal to the direction. |
| Geometry.ProjectionIdempotent | src/vector_utils.rs:60-66 | Projecting a projected point returns it unchanged. |
| Geometry.ProjectionFixesLinePoints | src/vector_utils.rs:60-66 | Every point already on the line is its own projection. |
| Geometry.Rotate | src/flex_line.rs:322-326 | `Vec2::rotate` by a vector (the complex product). It has no contract of its own; `Geometry.RotateLength` states how it scales lengths. |
| Geometry.RotateLength | src/flex_line.rs:322-326 | Rotating by a vector scales lengths by that vector's length, so a unit rotation preserves them. |
| Buffers.QuadIsTwoTriangles | src/flex_line.rs:347-359 | A quad is two triangles. They share the diagonal, walk it in opposite directions (so both wind the same way), and use the four corners. |
| Buffers.AddQuadIndices | src/flex_line.rs:347-359 | Appends exactly six indices, all among the quad's four corners, and keeps every earlier index. |
| Buffers.Strip | src/flex_line.rs:338-343 | A run of k quads from pair s on has 6k indices, each naming a vertex from s up to s + 2k + 1. |
| Buffers.StripQuad | src/flex_line.rs:347-359 | Quad number j of a strip joins vertex pair j to pair j + 1. |
| Buffers.PushPair | src/flex_line.rs:220-235 | Pushes one left/right vertex pair and one colour per vertex. Nothing earlier changes, and colours stay in step with vertices. |
| Buffers.AddQuadOnLast | src/flex_line.rs:237-241 | Joins the last two pairs (len - 4 .. len - 1) with a quad. It keeps indices in bounds and whole triangles. |
| Buffers.StripIsWellFormed | src/flex_line.rs:347-359 | A strip of quads names only existing vertices and holds whole triangles. |
| Buffers.PushPairKeepsStrip | src/flex_line.rs:328-343 | Pushing a pair and joining it to the previous one keeps the strip shape. |
| Corners.PushLocationPair | src/flex_line.rs:220-235 | Pushes the two vertices of a location, coloured for that location at the left edge (-1) and the right edge (+1). |
| Corners.StartPair | src/flex_line.rs:216-225 | The first location's pair: the start points of the first segment's left and right offsets. It has no contract of its own; `Corners.EndPairsSpanWidth` states where the two points lie. |
| Corners.EndPair | src/flex_line.rs:227-235 | The last location's pair: the end points of the last segment's offsets. It has no contract of its own; `Corners.EndPairsSpanWidth` states where the two points lie. |
| Corners.EndPairsSpanWidth | src/flex_line.rs:216-243 | Each endpoint pair is offset from its location along the unit normal of the end segment, by the left width one way and the right width the other. So the pair spans the full width. |
| Corners.Turns | src/flex_line.rs:374-386 | Whether the two path segments at a corner are far enough from parallel for `intersection_point` to answer. It is a predicate with no contract; `Corners.OffsetEdgesMeetIffTurns` ties it to the intersections. |
| Corners.MiterPoint | src/flex_line.rs:379-386 | The `intersection_point` call on two offset edges, with the argument order of the source. It has no contract of its own; `Corners.OffsetEdgesMeetIffTurns` and `Corners.SharpCornerIsMiter` state its properties. |
| Corners.AddSharpCorner | src/flex_line.rs:362-405 | A sharp corner emits nothing when either pair of offset edges is parallel. Otherwise it pushes one pair and one quad joining the previous location's pair to this location's pair, numbered `2 * location`. |
| Corners.SharpCornerColors | src/flex_line.rs:389-393 | The pair an emitting sharp corner pushes is coloured for its location: the left vertex at gradient -1 and the right one at +1. |
| Corners.ZeroSegmentEmitsNothing | src/flex_line.rs:374-404 | A sharp corner next to a zero-length segment (a repeated location) does not turn, so it pushes nothing (see "## Left out" for how the source differs). |
| Corners.OffsetEdgesMeetIffTurns | src/flex_line.rs:374-386 | The two offset edges meet exactly when the path turns (the turn is not below the parallel tolerance). |
| Corners.SharpCornerIsMiter | src/flex_line.rs:374-393 | The pushed sharp-corner vertices are the miter points: each lies on both offset edges of its side. |
| Corners.FanCount | src/flex_line.rs:314 | The number of fan steps is at least 2, and equals the raw step count whenever that is at least 2. |
| Corners.ArcPairOnRay | src/flex_line.rs:321-336 | With an exact square root and a unit rotation, each fan pair lies on one ray from the arc's centre, at the inner and the outer radius. |
| Corners.Fan | src/flex_line.rs:321-344 | j fan steps push 2j vertices and 6j indices. Pair i is the arc's i-th pair. Colours stay in step and the strip shape is kept. |
| Corners.FanColors | src/flex_line.rs:335-336 | Every fan pair is coloured for its location: the left vertex at gradient -1 and the right one at +1. |
| Corners.RoundedCornerMeets | src/flex_line.rs:287-291 | At a turning (non-Straight) corner the offset edges always intersect, so the source's `unwrap` cannot fail there. |
| Corners.TurnAreaIsSignedArea | src/flex_line.rs:266-291 | The corner's perp_dot is minus the signed area the orientation test uses. |
| Corners.CornerArc | src/flex_line.rs:287-312 | The arc turns right exactly when the orientation is Right. Its inner radius is the corner radius and its outer radius is that plus the width. |
| Corners.AddRoundedCorner | src/flex_line.rs:255-345 | A straight corner pushes nothing. Otherwise it pushes 2(fan_count + 1) vertices and 6(fan_count + 1) indices, keeping colours in step and the strip shape. |
| Corners.RoundedCornerColors | src/flex_line.rs:321-345 | Every one of the fan_count + 1 pairs a turning rounded corner pushes is coloured for its location, at gradient -1 on the left and +1 on the right. |
| Corners.StartCorner | src/flex_line.rs:216-225 | The first location of an open path pushes one pair and no indices. |
| Corners.EndCorner | src/flex_line.rs:227-243 | The last location of an open path pushes one pair and the quad joining it to the previous pair. |
| Corners.AddCorner | src/flex_line.rs:209-253 | Dispatches on the neighbours: the start of an open path, its end, or a sharp or rounded corner. It keeps earlier contents, colours in step, and the strip shape of rounded paths. |
| Corners.AddCornerEmits | src/flex_line.rs:209-253 | A corner that emits nothing leaves the buffers unchanged. One that emits pushes at least one pair, and a rounded interior corner at least three. |
| Corners.SharpCornerEmits | src/flex_line.rs:249-252 | A sharp corner with both neighbours emits exactly when the path turns there. |
| Corners.RoundedCornerEmits | src/flex_line.rs:249-252 | A rounded corner with both neighbours emits exactly when the orientation test does not answer Straight. |
| Corners.AddCornerEndQuad | src/flex_line.rs:227-243 | The last location of an open path adds exactly the quad joining the last two pairs. |
| Corners.AddCornerSharpQuad | src/flex_line.rs:389-404 | An emitting sharp corner adds exactly the quad from the previous location's pair to its own. |
| Caps.AsI32 | src/flex_line.rs:457 | `resolution as i32` keeps the low 32 bits in two's complement: the result is an `i32`, and any resolution below 2^31 is unchanged. |
| Caps.HalfTowardZero | src/flex_line.rs:457 | `i32` division by 2 truncates toward zero: the remainder is 0 or 1 for non-negative values and 0 or -1 for negative ones. |
| Caps.CapTriangles | src/flex_line.rs:457 | A cap has at least one fan triangle, whatever the resolution. |
| Caps.CapTrianglesCount | src/flex_line.rs:457 | The triangle count is resolution / 2 - 2 for resolutions from 6 up to 2^31, and 1 below 6. It is also 1 when the low 32 bits read as a negative `i32`. It is exactly 2 when the low 32 bits are 8 or 9. |
| Caps.CapVertex | src/flex_line.rs:460-465 | Fan vertex j of a cap: the origin plus half the width along the segment's normal turned by the j-th cap step. It has no contract of its own; `Caps.CapVertexOnCircle` states that it lies on the cap's circle. |
| Caps.CapVertexOnCircle | src/flex_line.rs:460-465 | With an exact square root and unit rotations, every cap fan vertex lies on the circle of radius width / 2 around the cap's origin. |
| Caps.CapFan | src/flex_line.rs:460-467 | Pushes exactly t fan vertices, one colour each, and keeps everything earlier. No indices are added. |
| Caps.CapVertices | src/flex_line.rs:449-467 | Pushes the origin, coloured like the centre line (gradient 0), and then the t fan vertices. Fan vertex j is the origin plus half the width along the segment's normal turned by the j-th cap step. Colours stay in step with vertices. |
| Caps.MiddleCountAsWritten | src/flex_line.rs:479-480 | The source writes the fan's t - 1 middle triangles for every t except 2, where it writes none. |
| Caps.MiddleTrianglesName | src/flex_line.rs:480-484 | The middle triangles name only the origin and the vertices after it, up to o + k + 1. |
| Caps.CapIndicesName | src/flex_line.rs:470-485 | Both the written and the corrected cap name only the two end vertices, the origin and the t fan vertices. |
| Caps.MiddleTriangles | src/flex_line.rs:480-484 | k middle triangles give exactly 3k indices. `Caps.MiddleTriangleAt` states each triangle and `Caps.MiddleTrianglesName` the vertices they name. |
| Caps.CapIndicesAsWritten | src/flex_line.rs:470-485 | The index layout the source writes for a cap: the first and last triangles, then the middle ones counted by `Caps.MiddleCountAsWritten`. It has no contract of its own; `Caps.CapAsWrittenHasGap` and `Caps.CapAsWrittenElsewhereComplete` state where it falls short. |
| Caps.CapIndices | src/flex_line.rs:470-485 | The corrected cap layout with every middle triangle: exactly 3(t + 1) indices. `Caps.CapCoversRim` states that it closes the half-disc. |
| Caps.MiddleTriangleAt | src/flex_line.rs:479-485 | Middle triangle i joins the origin to fan vertices i + 1 and i + 2. |
| Caps.CapCoversRim | src/flex_line.rs:470-485 | The corrected cap closes its half-disc: each two neighbours on the rim form a triangle with the origin. |
| Caps.CapAsWrittenHasGap | src/flex_line.rs:479 | With two fan triangles, the cap as written has no triangle between the origin and its two fan vertices. |
| Caps.CapAsWrittenElsewhereComplete | src/flex_line.rs:470-485 | For every other triangle count, the cap as written equals the corrected one. |
| Caps.AddCapAsWritten | src/flex_line.rs:432-486 | Sharp style: the cap changes nothing. Rounded style: it keeps everything earlier and pushes the origin (coloured at gradient 0) and t fan vertices, one colour each. It appends the first and last triangles, and the t - 1 middle triangles only when t > 2. All indices stay in bounds when both end vertices exist. |
| Caps.AddCap | src/flex_line.rs:432-486 | The corrected cap (see "## Findings"): the same as the written one, except that the middle triangles are appended for every t, giving 3(t + 1) indices, all in bounds. |
| Caps.CorrectedCapDiffersOnlyThere | src/flex_line.rs:479-485 | The written and the corrected cap push the same vertices and colours. Their triangles differ exactly when the corners are rounded and t is 2. |
| Caps.AddCapClosesFan | src/flex_line.rs:470-485 | Every rim neighbour pair of the corrected cap forms a triangle with the origin. |
| Caps.AddCapAsWrittenLeavesHole | src/flex_line.rs:479-485 | At resolution 8 or 9 the cap as written lacks the triangle between the origin and its first two fan vertices. |
| Caps.CapOriginOnCentreLine | src/flex_line.rs:412-414 | The cap origin, the midpoint of an endpoint pair, sits on the stroke's centre line. That is the location itself when the alignment is centred. |
| Caps.EndCapOrigin | src/flex_line.rs:410-417 | The end cap's origin is the last location, shifted along the end normal by half the difference of the side widths. |
| Caps.StartCapOrigin | src/flex_line.rs:421-428 | The start cap's origin is the first location, shifted the same way along the start normal. |
| Caps.EndCap | src/flex_line.rs:410-417 | The end cap, as written: it pushes t + 1 vertices around the new vertex n and appends the written fan from vertex n - 1 round to n - 2, keeping indices in bounds. |
| Caps.StartCap | src/flex_line.rs:421-428 | The start cap, as written: it pushes t + 1 vertices and appends the written fan from vertex 0 round to vertex 1, keeping indices in bounds. |
| Caps.CalcCaps | src/flex_line.rs:408-429 | Sharp style: no caps. Rounded style: the two caps as written push 2(t + 1) vertices, keep colours in step and indices in bounds, and keep everything earlier. |
| Caps.CalcCapsIndices | src/flex_line.rs:408-429 | The appended triangles are exactly the end cap's written fan around vertex n, then the start cap's written fan around vertex n + t + 1. |
| Mesh.Start | src/flex_line.rs:163-169 | A connected path starts with one placeholder pair coloured for location 0. An open path starts empty. |
| Mesh.CornersUpTo | src/flex_line.rs:171-173 | The loop only ever pushes, and keeps colours in step with vertices. |
| Mesh.Body | src/flex_line.rs:171-173 | After the loop over every location, colours are in step with vertices and at least one pair has been pushed. |
| Mesh.MoveLastTwo | src/flex_line.rs:179-182 | The double pop and store fails exactly on fewer than three elements. On four or more it leaves the last element in slot 1, the one before it in slot 0, and the list two shorter. |
| Mesh.CloseRing | src/flex_line.rs:178-191 | The closing step moves the last pair and its colours into slots 0 and 1. A sharp path keeps its indices. A rounded path's last quad is redirected to the new slots 0 and 1, and it fails exactly where the source would index past an end. |
| Mesh.FillColors | src/flex_line.rs:193-201 | A fill recolours every vertex with the fill colour, one colour per vertex. Any other colouring is untouched. |
| Mesh.MakeMesh | src/flex_line.rs:157-207 | Only a connected path can fail. The result keeps colours in step with vertices, and a fill colours every vertex. |
| MeshTheorems.RoundedPrefixIsStrip | src/flex_line.rs:171-173 | During the loop on a rounded path, the buffers are always a strip joining pair after pair. |
| MeshTheorems.SharpOpenPrefix | src/flex_line.rs:171-173 | After k rounds on an open sharp path where every corner emits, there are 2k vertices and the strip of k - 1 quads. |
| MeshTheorems.SharpClosedPrefix | src/flex_line.rs:163-173 | After k rounds on a connected sharp path, there are 2k + 2 vertices (placeholders included) and the quads of corners 0 .. k - 1. Corner 0's quad names the last pair's slot before that pair exists. |
| MeshTheorems.NoneEmitBeforeStep | src/flex_line.rs:249-252 | No location before k + 1 emits exactly when none before k does and location k does not. |
| MeshTheorems.ConnectedStep | src/flex_line.rs:171-173 | One more round of the loop on a connected path keeps the buffers' shape. A silent corner adds nothing, an emitting one at least a pair, and a rounded one at least three pairs. |
| MeshTheorems.ConnectedPrefixEmpty | src/flex_line.rs:163-173 | On a connected path the buffers hold just the two placeholders exactly while no corner has emitted. After that they hold at least four vertices, and at least eight when rounded. |
| MeshTheorems.StripIsOpenBand | src/flex_line.rs:347-359 | A strip joins every pair to the next with one quad, and has no other quads. |
| MeshTheorems.BandThenCloseIsRing | src/flex_line.rs:186-190 | A band followed by a quad from the last pair back to pair 0 is a closed ring. |
| MeshTheorems.CloseThenBandIsRing | src/flex_line.rs:389-404 | The closing quad followed by the band is also a closed ring. That is the sharp path's order, where corner 0 writes it first. |
| MeshTheorems.SharpOpenMesh | src/flex_line.rs:157-207 | On an open sharp path of n locations where every corner emits: 2n vertices, a band of n - 1 quads, every index in bounds. |
| MeshTheorems.RoundedOpenBody | src/flex_line.rs:171-173 | Before the caps, an open rounded path's buffers are a band with every index in bounds. |
| MeshTheorems.OpenMeshIsCappedBody | src/flex_line.rs:157-207 | An open path's mesh is the loop's buffers plus the caps. |
| MeshTheorems.RoundedOpenMesh | src/flex_line.rs:157-207 | An open rounded path's loop output is an open band. The mesh's triangles are exactly that band's, then the end cap's and the start cap's as the source writes them, so at resolution 8 or 9 neither cap has its middle triangle (see "## Findings"). The caps add 2(t + 1) vertices, and every index is in bounds. |
| MeshTheorems.SharpClosing | src/flex_line.rs:178-191 | Closing a connected sharp path's buffers yields a ring of n pairs with indices in bounds. |
| MeshTheorems.SharpClosedMesh | src/flex_line.rs:157-207 | On a connected sharp path of n locations where every corner emits: 2n vertices, a closed ring of n quads, every index below 2n. |
| MeshTheorems.ClosingRoundedStrip | src/flex_line.rs:178-191 | Closing a rounded strip of m ≥ 3 pairs gives m - 1 pairs joined in a closed ring, with indices in bounds. |
| MeshTheorems.RoundedClosedBody | src/flex_line.rs:163-173 | A connected rounded path's loop output is a strip holding either only the placeholders or at least eight vertices. |
| MeshTheorems.ConnectedMeshIsClosedBody | src/flex_line.rs:157-207 | A connected mesh exists exactly when the closing step succeeds, and it is that step's output. |
| MeshTheorems.ClosedStripIsRing | src/flex_line.rs:178-191 | Whenever the closing step succeeds on a rounded strip, the result is a closed ring two vertices shorter. |
| MeshTheorems.RoundedClosedMesh | src/flex_line.rs:157-207 | A connected rounded mesh, when built, is a closed ring of quads two vertices shorter than the loop's buffers, with indices in bounds. |
| MeshTheorems.ConnectedMeshFails | src/flex_line.rs:178-182 | A connected mesh fails exactly when no corner emits anything, because the closing step then pops from the bare placeholders. |
| MeshTheorems.TwoPointSharpMesh | src/flex_line.rs:216-243 | A two-point open sharp line gives exactly the four endpoint vertices and the two triangles 0 1 2 and 1 3 2. |
| MeshTheorems.BandWindsCounterClockwise | src/flex_line.rs:237-241 | Pairs offset along the left normal of their segment give quads whose two triangles both wind counter-clockwise. |
| MeshTheorems.TwoPointWindsCounterClockwise | src/flex_line.rs:216-243 | For a two-point line of positive width and an exact square root, both triangles wind counter-clockwise. |

## Left out

- Bevy's `Mesh` construction and attribute insertion (src/flex_line.rs:203-206) are a library call. The model's result is the three buffers.
- `Color::to_srgba` and `Srgba::mix` are Bevy code. A colour is four real channels, and mixing is channel-wise linear interpolation.
- `f32` rounding, NaN and infinities are not modelled: all arithmetic is exact `real`. The same holds for `u32` overflow of indices and the `isize` cast in `get_prev_idx`. The `resolution as i32` cast of a cap is modelled (`Caps.AsI32`).
- Vertices are 2D. The constant z = 0 of each pushed `[f32; 3]` is not stored.
- `normalize`, `angle_between`, `Vec2::from_angle`, `rotate`, `sin` and π are transcendental. They come from the `Trig` parameter, so rounded fan and cap vertex positions and cap colours are opaque values. Geometric lemmas about them assume an exact square root and unit rotations.
- Corners.FanCount: the float-to-integer `fan_count` formula (src/flex_line.rs:314) is an oracle value. The model applies only the source's `max(2, _)` clamp.
- MeshTheorems.SharpOpenMesh, MeshTheorems.SharpOpenPrefix, MeshTheorems.SharpClosedMesh, MeshTheorems.SharpClosedPrefix: these assume that every sharp corner finds both intersections (`AllCornersEmit`). When one does not, the `index * 2` numbering of src/flex_line.rs:395-403 no longer matches the buffers. That degenerate case is left out.
- Corners.AddRoundedCorner: the contract states counts, the strip shape and colours in step, but not the fan vertex positions. Those come from the opaque rotations; `Corners.Fan` and `Corners.ArcPairOnRay` state what is known about them.
- Corners.AddRoundedCorner: the fan loop `for i in 0..fan_count + 1` (src/flex_line.rs:321) adds in `i32`. The `as i32` cast of line 314 saturates, so a huge resolution gives `fan_count == i32::MAX`. Then `fan_count + 1` overflows: a debug build panics, and a release build wraps to `i32::MIN`, leaving an empty range so the corner pushes nothing. The model counts in unbounded integers and always pushes `fan_count + 1` pairs. Its contract, and `Corners.Fan`, `Corners.RoundedCornerColors`, `Corners.RoundedCornerEmits` and `MeshTheorems.RoundedPrefixIsStrip`, do not cover that saturated count. (The caps' `resolution as i32` is modelled, by `Caps.AsI32`.)
- Caps.AddCap, Caps.AddCapAsWritten: the fan colours are stated only as being in step with vertices, because their gradients use the opaque sine. The origin's colour (gradient 0) is stated.
- Corners.AddSharpCorner: at a zero-length segment (two equal consecutive locations), the source's `normalize` of the zero vector gives NaN. `intersection_point` then answers `Some(NaN)`, because its `det.abs() < 1e-10` test is false for NaN, and the corner pushes a NaN pair and a quad. The model's normalize of the zero vector is zero, so the corner emits nothing (`Corners.ZeroSegmentEmitsNothing`). The vertex and index counts on such paths therefore differ from the source's. `MeshTheorems.ConnectedMeshFails` inherits this: a connected sharp path whose locations are all equal is None in the model, while the source builds a NaN mesh.
- MeshTheorems.ConnectedMeshFails: "no corner emits" is decided with the model's zero-length-segment behaviour above. A connected sharp path whose consecutive locations are all equal fails in the model, while the source emits NaN vertices for it.
- Geometry.ProjectPointOntoLine: when the two line points coincide, the source divides by zero and returns NaN. The model answers None there.
- Mesh.MakeMesh: the source panics, via an out-of-range index after the pops, where the model answers None. `MeshTheorems.ConnectedMeshFails` characterises that case.
- Style.Valid: a per-vertex colour list shorter than the path makes the source panic on indexing. The mesh builder's precondition excludes it instead of modelling the panic. `Style.Valid` also requires at least two locations, and `Mesh.MakeMesh` inherits that precondition. The source does not ensure it: `FlexLine`'s fields are public and `FlexLine::default()` has no locations (src/flex_line.rs:93-103), yet the plugin meshes every line. On those short lines the source does the following, and the model says nothing about them (it neither answers None nor builds a mesh):
  - no locations, connected: the closing step panics on `vertices[1]` after the first pop (src/flex_line.rs:179);
  - no locations, open: `calc_caps` indexes `locations[len - 1]` with `len == 0` and panics (src/flex_line.rs:410);
  - one location, open: `add_corner(0)` reads `locations[1]` and panics (src/flex_line.rs:217);
  - one location, connected and rounded: the only corner is Straight and pushes nothing, so the closing step panics as above;
  - one location, connected and sharp: both neighbours are the location itself, so the zero-length-segment case above pushes a NaN pair and a quad, and the source builds a NaN mesh.
- src/plugin.rs, src/bundle.rs and src/lib.rs are ECS and asset glue. They are not part of this model.
- src/polyline2d.rs, src/flex_path.rs and src/vector_extensions.rs are not compiled into the crate and are superseded. They are not part of this model.
- examples/test.rs is an interactive demo. It is not part of this model.

## Findings

| source | as written | input that shows it | evidently intended | confidence | as-written member | corrected member |
|---|---|---|---|---|---|---|
| src/flex_line.rs:479 | The middle triangles of a cap are written only `if triangles > 2` | A rounded open path with resolution 8 or 9. Then `triangles` is 2, and the fan vertices o+1 and o+2 have no triangle with the cap origin o, leaving a wedge-shaped hole in each cap | Write them whenever `triangles >= 2`, so that the fan closes for every triangle count | not executed | Caps.AddCapAsWrittenLeavesHole | Caps.AddCapClosesFan |

=== FILE: buffers.dfy ===
/**
  The three growing buffers `make_mesh` fills (vertex positions, triangle
  indices, vertex colours) and the index patterns it writes into them.

  Vertices are pushed in pairs: the vertex on the left edge of the stroke
  first, then the one on the right edge. A `Quad` joins two such pairs with
  two triangles, and a `Strip` is a run of quads joining consecutive pairs.
*/
module Buffers {
  import opened Geometry
  import opened Style

  datatype Buffers = Buffers(vertices: seq<Vec2>, indices: seq<nat>, colors: seq<Rgba>)

  const Empty := Buffers([], [], [])

  /** Every vertex has exactly one colour. */
  predicate Lockstep(b: Buffers) {
    |b.colors| == |b.vertices|
  }

  /** Every index names an existing vertex. */
  predicate InBounds(b: Buffers) {
    forall k :: 0 <= k < |b.indices| ==> b.indices[k] < |b.vertices|
  }

  /** `b2` was obtained from `b1` by pushing only: all three buffers keep their prefix. */
  predicate Extends(b1: Buffers, b2: Buffers) {
    b1.vertices <= b2.vertices && b1.indices <= b2.indices && b1.colors <= b2.colors
  }

  /** Pushing twice is pushing. */
  lemma ExtendsTransitive(b1: Buffers, b2: Buffers, b3: Buffers)
    requires Extends(b1, b2) && Extends(b2, b3)
    ensures Extends(b1, b3)
  {
  }

  /** The triangle list stays a whole number of triangles. */
  predicate WholeTriangles(b: Buffers) {
    |b.indices| % 3 == 0
  }

  /** The triangles (a, b, c) and (b, d, c) that `add_quad_indices` writes for the quad a b d c. */
  function Quad(a: nat, b: nat, c: nat, d: nat): seq<nat> {
    [a, b, c, b, d, c]
  }

  /** Triangle number `t` of an index list. */
  function TriangleAt(indices: seq<nat>, t: nat): (nat, nat, nat)
    requires 3 * t + 2 < |indices|
  {
    (indices[3 * t], indices[3 * t + 1], indices[3 * t + 2])
  }

  /** The triangle walks from `u` straight to `v` along one of its edges. */
  predicate HasDirectedEdge(tri: (nat, nat, nat), u: nat, v: nat) {
    (tri.0 == u && tri.1 == v) || (tri.1 == u && tri.2 == v) || (tri.2 == u && tri.0 == v)
  }

  /**
    The two triangles of a quad use its four corners, share the diagonal b-c
    and walk it in opposite directions, so both wind the same way round.
  */
  lemma QuadIsTwoTriangles(a: nat, b: nat, c: nat, d: nat)
    ensures |Quad(a, b, c, d)| == 6
    ensures var q := Quad(a, b, c, d);
      HasDirectedEdge(TriangleAt(q, 0), b, c) && HasDirectedEdge(TriangleAt(q, 1), c, b)
      && HasDirectedEdge(TriangleAt(q, 0), a, b) && HasDirectedEdge(TriangleAt(q, 1), b, d)
      && HasDirectedEdge(TriangleAt(q, 1), d, c) && HasDirectedEdge(TriangleAt(q, 0), c, a)
  {
  }

  /**
    `add_quad_indices`: appends the two triangles of the quad; the indices
    already written are kept.
  */
  function AddQuadIndices(indices: seq<nat>, a: nat, b: nat, c: nat, d: nat): (r: seq<nat>)
    ensures |r| == |indices| + 6 && r[..|indices|] == indices
    ensures forall k :: |indices| <= k < |r| ==> r[k] in {a, b, c, d}
  {
    indices + Quad(a, b, c, d)
  }

  /**
    `Strip(s, k)`: `k` quads joining the pair at `s` to the pair at `s + 2`,
    that one to the pair at `s + 4`, and so on: the triangles of a band of
    `k + 1` consecutive vertex pairs.
  */
  function Strip(s: nat, k: nat): (r: seq<nat>)
    ensures |r| == 6 * k
    ensures forall j :: 0 <= j < |r| ==> s <= r[j] < s + 2 * k + 2
    decreases k
  {
    if k == 0 then []
    else Strip(s, k - 1) + Quad(s + 2 * k - 2, s + 2 * k - 1, s + 2 * k, s + 2 * k + 1)
  }

  /** A strip joins pair `j` to pair `j + 1` with quad number `j`. */
  lemma {:induction false} StripQuad(s: nat, k: nat, j: nat)
    requires j < k
    ensures Strip(s, k)[6 * j .. 6 * j + 6] == Quad(s + 2 * j, s + 2 * j + 1, s + 2 * j + 2, s + 2 * j + 3)
    decreases k
  {
    if j < k - 1 {
      StripQuad(s, k - 1, j);
      assert Strip(s, k)[..6 * (k - 1)] == Strip(s, k - 1);
    }
  }

  /** Pushing one more pair and joining it to the previous one extends the strip by one quad. */
  lemma StripGrows(s: nat, k: nat)
    ensures Strip(s, k) + Quad(s + 2 * k, s + 2 * k + 1, s + 2 * k + 2, s + 2 * k + 3) == Strip(s, k + 1)
  {
  }

  /**
    Pushes a vertex pair and its two colours, the left edge's first; the
    triangle list is untouched.
  */
  function PushPair(b: Buffers, left: Vec2, right: Vec2, leftColor: Rgba, rightColor: Rgba): (r: Buffers)
    ensures Extends(b, r) && r.indices == b.indices
    ensures |r.vertices| == |b.vertices| + 2 && |r.colors| == |b.colors| + 2
    ensures r.vertices[|b.vertices|] == left && r.vertices[|b.vertices| + 1] == right
    ensures r.colors[|b.colors|] == leftColor && r.colors[|b.colors| + 1] == rightColor
    ensures Lockstep(b) ==> Lockstep(r)
    ensures InBounds(b) ==> InBounds(r)
  {
    Buffers(b.vertices + [left, right], b.indices, b.colors + [leftColor, rightColor])
  }

  /**
    The quad between the last two vertex pairs (`len - 4` .. `len - 1`), as
    the endpoint and rounded-corner code write it after each push.
  */
  function AddQuadOnLast(b: Buffers): (r: Buffers)
    requires |b.vertices| >= 4
    ensures r.vertices == b.vertices && r.colors == b.colors && Extends(b, r)
    ensures var n := |b.vertices|;
      r.indices == b.indices + Quad(n - 4, n - 3, n - 2, n - 1)
    ensures InBounds(b) ==> InBounds(r)
    ensures WholeTriangles(b) ==> WholeTriangles(r)
  {
    var n := |b.vertices|;
    b.(indices := AddQuadIndices(b.indices, n - 4, n - 3, n - 2, n - 1))
  }

  /**
    The shape of every buffer built only from pairs and `AddQuadOnLast`: an
    even number of vertices, joined pair after pair by one strip from vertex 0.
  */
  predicate IsStrip(b: Buffers) {
    |b.vertices| >= 2 && |b.vertices| % 2 == 0
    && b.indices == Strip(0, |b.vertices| / 2 - 1)
  }

  /** A strip names only its own vertices and holds whole triangles. */
  lemma StripIsWellFormed(b: Buffers)
    requires IsStrip(b)
    ensures InBounds(b) && WholeTriangles(b)
  {
  }

  /** Pushing a pair and joining it to the last one keeps the strip shape. */
  lemma PushPairKeepsStrip(b: Buffers, left: Vec2, right: Vec2, cl: Rgba, cr: Rgba)
    ensures IsStrip(b) ==> IsStrip(AddQuadOnLast(PushPair(b, left, right, cl, cr)))
  {
    if IsStrip(b) {
      var k := |b.vertices| / 2 - 1;
      var r := AddQuadOnLast(PushPair(b, left, right, cl, cr));
      assert |b.vertices| == 2 * k + 2;
      assert |r.vertices| / 2 - 1 == k + 1;
      StripGrows(0, k);
    }
  }
}

=== FILE: caps.dfy ===
/**
  The round caps `calc_caps` and `add_cap` put on both ends of an open path
  with rounded corners: a fan of triangles around the centre of the stroke's
  end, closing the half-disc between the end pair's two vertices.
*/
module Caps {
  import opened Geometry
  import opened Style
  import opened Buffers
  import opened Corners

  /**
    `resolution as i32`: the low 32 bits of the `usize` resolution, read in
    two's complement, so a resolution of 2^31 or more can come out negative.
  */
  function AsI32(x: nat): (r: int)
    ensures -0x8000_0000 <= r < 0x8000_0000
    ensures x < 0x8000_0000 ==> r == x
  {
    var low := x % 0x1_0000_0000;
    if low < 0x8000_0000 then low
    else
      ModUnique(low - 0x1_0000_0000, 0x1_0000_0000, -1, low);
      low - 0x1_0000_0000
  }

  /** `/ 2` on `i32`: the quotient truncated toward zero, for negative values too. */
  function HalfTowardZero(x: int): (r: int)
    ensures x >= 0 ==> 0 <= x - 2 * r <= 1
    ensures x < 0 ==> -1 <= x - 2 * r <= 0
  {
    if x >= 0 then x / 2 else -((-x) / 2)
  }

  /**
    `1.max(resolution as i32 / 2 - 2) as u32`: how many triangles a cap's fan
    adds between the two end vertices.
  */
  function CapTriangles(resolution: nat): (t: nat)
    ensures t >= 1
  {
    var h := HalfTowardZero(AsI32(resolution)) - 2;
    if h > 1 then h else 1
  }

  /**
    At least one triangle, and only the low 32 bits of the resolution matter:
    half of it less two for the usual resolutions, one for a resolution whose
    low bits read as a negative `i32`, and exactly two when those bits read 8
    or 9.
  */
  lemma CapTrianglesCount(resolution: nat)
    ensures var t := CapTriangles(resolution);
      1 <= t < 0x4000_0000
      && (6 <= resolution < 0x8000_0000 ==> t == resolution / 2 - 2)
      && (resolution < 6 ==> t == 1)
      && (0x8000_0000 <= resolution % 0x1_0000_0000 ==> t == 1)
      && (t == 2 <==> resolution % 0x1_0000_0000 == 8 || resolution % 0x1_0000_0000 == 9)
  {
  }

  /**
    Fan vertex `j` (1 <= j <= t) of a cap: the unit normal of `segment` turned
    by `j` of the `t + 1` equal steps of a half turn, at half the stroke width
    from the cap's centre.
  */
  function CapVertex(trig: Trig, origin: Vec2, segment: Vec2, width: real, t: nat, j: nat): Vec2 {
    var fanVec := UnitPerp(trig.invSqrt, segment);
    Add(origin, Scale(Rotate(trig.capTurn(t, j), fanVec), width / 2.0))
  }

  /** With an exact square root and unit turns every fan vertex lies on the circle of radius width / 2. */
  lemma CapVertexOnCircle(trig: Trig, origin: Vec2, segment: Vec2, width: real, t: nat, j: nat)
    requires segment != Zero
    requires Dot(trig.capTurn(t, j), trig.capTurn(t, j)) == 1.0
    requires InvSqrtAt(trig.invSqrt, Dot(segment, segment))
    ensures var v := CapVertex(trig, origin, segment, width, t, j);
      Dot(Sub(v, origin), Sub(v, origin)) == (width / 2.0) * (width / 2.0)
  {
    var fanVec := UnitPerp(trig.invSqrt, segment);
    var turn := trig.capTurn(t, j);
    UnitPerpIsUnitNormal(trig.invSqrt, segment);
    RotateLength(turn, fanVec);
    var dir := Rotate(turn, fanVec);
    assert Dot(dir, dir) == 1.0;
    var v := CapVertex(trig, origin, segment, width, t, j);
    assert Sub(v, origin) == Scale(dir, width / 2.0);
    ScaledLength(dir, width / 2.0);
  }

  /** The `t` fan vertices of a cap, each coloured for location `index` by the sine of its angle. */
  function CapFan(line: FlexLine, trig: Trig, b: Buffers, origin: Vec2, segment: Vec2, t: nat,
                  index: nat, side: real): (r: Buffers)
    requires Valid(line) && index < |line.locations|
    ensures r.indices == b.indices && Extends(b, r)
    ensures |r.vertices| == |b.vertices| + t
    ensures Lockstep(b) ==> Lockstep(r)
  {
    b.(vertices := b.vertices + seq(t, (j: nat) => CapVertex(trig, origin, segment, line.width, t, j + 1)),
       colors := b.colors + seq(t, (j: nat) => Sample(line.color, index, trig.capSine(t, j + 1) * side)))
  }

  /** The middle triangles of a fan around `o` over the vertices `o + 1 .. o + k + 1`. */
  function MiddleTriangles(o: nat, k: nat): (r: seq<nat>)
    ensures |r| == 3 * k
    decreases k
  {
    if k == 0 then [] else MiddleTriangles(o, k - 1) + [o, o + k + 1, o + k]
  }

  /** The middle triangles name only the centre `o` and the vertices after it, up to `o + k + 1`. */
  lemma {:induction false} MiddleTrianglesName(o: nat, k: nat)
    ensures forall p :: 0 <= p < |MiddleTriangles(o, k)| ==> o <= MiddleTriangles(o, k)[p] <= o + k + 1
    decreases k
  {
    if k > 0 {
      MiddleTrianglesName(o, k - 1);
    }
  }

  /** Middle triangle `i` is the centre with fan vertices `i + 1` and `i` (counted from 0). */
  lemma {:induction false} MiddleTriangleAt(o: nat, k: nat, i: nat)
    requires i < k
    ensures TriangleAt(MiddleTriangles(o, k), i) == (o, o + i + 2, o + i + 1)
    decreases k
  {
    if i < k - 1 {
      MiddleTriangleAt(o, k - 1, i);
      assert MiddleTriangles(o, k)[..3 * (k - 1)] == MiddleTriangles(o, k - 1);
    }
  }

  /** The triangles `add_cap` writes: the first and the last one, and the middle ones only when `t > 2`. */
  function CapIndicesAsWritten(o: nat, a: nat, b: nat, t: nat): (r: seq<nat>)
    requires t >= 1
  {
    [o, o + 1, a, o, o + t, b] + MiddleTriangles(o, MiddleCountAsWritten(t))
  }

  /** How many middle triangles `add_cap` writes: the `t - 1` of the fan, but only when `t > 2`. */
  function MiddleCountAsWritten(t: nat): (k: nat)
    requires t >= 1
    ensures t != 2 ==> k == t - 1
    ensures t == 2 ==> k == 0
  {
    if t > 2 then t - 1 else 0
  }

  /** The triangles of a cap with every middle triangle: the fan the source evidently means. */
  function CapIndices(o: nat, a: nat, b: nat, t: nat): (r: seq<nat>)
    requires t >= 1
    ensures |r| == 3 * (t + 1)
  {
    [o, o + 1, a, o, o + t, b] + MiddleTriangles(o, t - 1)
  }

  /** A cap names only its two end vertices, its centre `o` and its fan vertices `o + 1 .. o + t`. */
  lemma CapIndicesName(o: nat, a: nat, b: nat, t: nat)
    requires t >= 1
    ensures var r := CapIndicesAsWritten(o, a, b, t);
      forall p :: 0 <= p < |r| ==> r[p] == a || r[p] == b || o <= r[p] <= o + t
    ensures var r := CapIndices(o, a, b, t);
      forall p :: 0 <= p < |r| ==> r[p] == a || r[p] == b || o <= r[p] <= o + t
  {
    MiddleTrianglesName(o, MiddleCountAsWritten(t));
    MiddleTrianglesName(o, t - 1);
  }

  /** The rim of a cap in fan order: `a`, the `t` fan vertices after the centre `o`, then `b`. */
  function CapRim(o: nat, a: nat, b: nat, t: nat): (rim: seq<nat>)
    ensures |rim| == t + 2 && rim[0] == a && rim[t + 1] == b
    ensures forall j :: 1 <= j <= t ==> rim[j] == o + j
  {
    [a] + seq(t, i => o + i + 1) + [b]
  }

  predicate HasCorner(tri: (nat, nat, nat), x: nat) {
    tri.0 == x || tri.1 == x || tri.2 == x
  }

  /** The triangle has each of `x`, `y` and `z` as a corner (for distinct ones: exactly these corners). */
  predicate SameTriangle(tri: (nat, nat, nat), x: nat, y: nat, z: nat) {
    HasCorner(tri, x) && HasCorner(tri, y) && HasCorner(tri, z)
  }

  /** Some triangle of `indices` has exactly the corners `x`, `y` and `z`. */
  predicate HasTriangle(indices: seq<nat>, x: nat, y: nat, z: nat) {
    exists k :: 0 <= k < |indices| && 3 * k + 2 < |indices| && SameTriangle(TriangleAt(indices, k), x, y, z)
  }

  /**
    A complete cap closes its half-disc: every two neighbours on the rim form
    a triangle with the centre.
  */
  lemma CapCoversRim(o: nat, a: nat, b: nat, t: nat)
    requires t >= 1
    ensures var rim := CapRim(o, a, b, t);
      forall j :: 0 <= j <= t ==> HasTriangle(CapIndices(o, a, b, t), o, rim[j], rim[j + 1])
  {
    var rim := CapRim(o, a, b, t);
    var idx := CapIndices(o, a, b, t);
    var middle := MiddleTriangles(o, t - 1);
    forall j | 0 <= j <= t
      ensures HasTriangle(idx, o, rim[j], rim[j + 1])
    {
      if j == 0 {
        assert SameTriangle(TriangleAt(idx, 0), o, rim[0], rim[1]);
      } else if j == t {
        assert SameTriangle(TriangleAt(idx, 1), o, rim[t], rim[t + 1]);
      } else {
        MiddleTriangleAt(o, t - 1, j - 1);
        assert TriangleAt(idx, j + 1) == TriangleAt(middle, j - 1);
        assert SameTriangle(TriangleAt(idx, j + 1), o, rim[j], rim[j + 1]);
      }
    }
  }

  /**
    The cap as written leaves a hole when it has exactly two triangles
    (resolution 8 or 9): no triangle joins the centre to the two fan vertices.
  */
  lemma CapAsWrittenHasGap(o: nat, a: nat, b: nat)
    requires a < o && b < o
    ensures var rim := CapRim(o, a, b, 2);
      !HasTriangle(CapIndicesAsWritten(o, a, b, 2), o, rim[1], rim[2])
  {
    var idx := CapIndicesAsWritten(o, a, b, 2);
    assert idx == [o, o + 1, a, o, o + 2, b];
    forall k | 0 <= k && 3 * k + 2 < |idx|
      ensures !SameTriangle(TriangleAt(idx, k), o, o + 1, o + 2)
    {
      if k == 0 {
        assert !HasCorner(TriangleAt(idx, k), o + 2);
      } else {
        assert !HasCorner(TriangleAt(idx, k), o + 1);
      }
    }
  }

  /** Apart from two triangles the written cap is the complete one. */
  lemma CapAsWrittenElsewhereComplete(o: nat, a: nat, b: nat, t: nat)
    requires t >= 1 && t != 2
    ensures CapIndicesAsWritten(o, a, b, t) == CapIndices(o, a, b, t)
  {
  }

  /**
    The vertices of a cap: the centre `origin`, coloured like the stroke's
    centre line (gradient 0), then the `t` fan vertices.
  */
  function CapVertices(line: FlexLine, trig: Trig, b: Buffers, origin: Vec2, segment: Vec2, t: nat,
                       index: nat, side: real): (r: Buffers)
    requires Valid(line) && index < |line.locations|
    ensures Extends(b, r) && r.indices == b.indices
    ensures |r.vertices| == |b.vertices| + 1 + t && r.vertices[|b.vertices|] == origin
    ensures forall j :: 1 <= j <= t ==> r.vertices[|b.vertices| + j] == CapVertex(trig, origin, segment, line.width, t, j)
    ensures Lockstep(b) ==> Lockstep(r) && r.colors[|b.vertices|] == Sample(line.color, index, 0.0)
  {
    var centred := b.(vertices := b.vertices + [origin], colors := b.colors + [Sample(line.color, index, 0.0)]);
    CapFan(line, trig, centred, origin, segment, t, index, side)
  }

  /**
    `add_cap` as the source writes it: nothing for sharp corners; otherwise the
    centre vertex, `t` fan vertices, and the triangles of `CapIndicesAsWritten`
    fanning from the end vertex `a` round to the end vertex `b`.
  */
  function AddCapAsWritten(line: FlexLine, trig: Trig, b: Buffers, origin: Vec2, segment: Vec2,
                           indexA: nat, indexB: nat, index: nat, side: real): (r: Buffers)
    requires Valid(line) && index < |line.locations|
    ensures Extends(b, r)
    ensures line.cornerStyle.Sharp? ==> r == b
    ensures line.cornerStyle.Rounded? ==>
      var t := CapTriangles(line.cornerStyle.resolution);
      var o := |b.vertices|;
      |r.vertices| == o + 1 + t && r.vertices[o] == origin
      && r.indices == b.indices + CapIndicesAsWritten(o, indexA, indexB, t)
    ensures Lockstep(b) ==> Lockstep(r)
    ensures line.cornerStyle.Rounded? && Lockstep(b) ==> r.colors[|b.vertices|] == Sample(line.color, index, 0.0)
    ensures InBounds(b) && indexA < |b.vertices| && indexB < |b.vertices| ==> InBounds(r)
  {
    match line.cornerStyle
    case Sharp => b
    case Rounded(_, resolution) =>
      var t := CapTriangles(resolution);
      var fan := CapVertices(line, trig, b, origin, segment, t, index, side);
      CapIndicesName(|b.vertices|, indexA, indexB, t);
      fan.(indices := fan.indices + CapIndicesAsWritten(|b.vertices|, indexA, indexB, t))
  }

  /** The corrected cap: the same vertices, with every middle triangle written (`CapIndices`). */
  function AddCap(line: FlexLine, trig: Trig, b: Buffers, origin: Vec2, segment: Vec2,
                  indexA: nat, indexB: nat, index: nat, side: real): (r: Buffers)
    requires Valid(line) && index < |line.locations|
    ensures Extends(b, r)
    ensures line.cornerStyle.Sharp? ==> r == b
    ensures line.cornerStyle.Rounded? ==>
      var t := CapTriangles(line.cornerStyle.resolution);
      var o := |b.vertices|;
      |r.vertices| == o + 1 + t && r.vertices[o] == origin
      && r.indices == b.indices + CapIndices(o, indexA, indexB, t)
    ensures Lockstep(b) ==> Lockstep(r)
    ensures line.cornerStyle.Rounded? && Lockstep(b) ==> r.colors[|b.vertices|] == Sample(line.color, index, 0.0)
    ensures InBounds(b) && indexA < |b.vertices| && indexB < |b.vertices| ==> InBounds(r)
  {
    match line.cornerStyle
    case Sharp => b
    case Rounded(_, resolution) =>
      var t := CapTriangles(resolution);
      var fan := CapVertices(line, trig, b, origin, segment, t, index, side);
      CapIndicesName(|b.vertices|, indexA, indexB, t);
      fan.(indices := fan.indices + CapIndices(|b.vertices|, indexA, indexB, t))
  }

  /**
    The corrected cap differs from the written one only in its triangles, and
    only when the resolution's low 32 bits read 8 or 9.
  */
  lemma CorrectedCapDiffersOnlyThere(line: FlexLine, trig: Trig, b: Buffers, origin: Vec2, segment: Vec2,
                                     indexA: nat, indexB: nat, index: nat, side: real)
    requires Valid(line) && index < |line.locations|
    ensures var written := AddCapAsWritten(line, trig, b, origin, segment, indexA, indexB, index, side);
      var fixed := AddCap(line, trig, b, origin, segment, indexA, indexB, index, side);
      written.vertices == fixed.vertices && written.colors == fixed.colors
      && (written == fixed <==> line.cornerStyle.Sharp? || CapTriangles(line.cornerStyle.resolution) != 2)
  {
    if line.cornerStyle.Rounded? {
      var t := CapTriangles(line.cornerStyle.resolution);
      var o := |b.vertices|;
      if t == 2 {
        assert |CapIndicesAsWritten(o, indexA, indexB, t)| != |CapIndices(o, indexA, indexB, t)|;
      } else {
        CapAsWrittenElsewhereComplete(o, indexA, indexB, t);
      }
    }
  }

  /** A triangle of the back part of a list that starts on a triangle boundary is a triangle of the list. */
  lemma {:induction false} HasTriangleAfter(front: seq<nat>, back: seq<nat>, x: nat, y: nat, z: nat)
    requires |front| % 3 == 0
    ensures HasTriangle(back, x, y, z) ==> HasTriangle(front + back, x, y, z)
  {
    if HasTriangle(back, x, y, z) {
      var k :| 0 <= k < |back| && 3 * k + 2 < |back| && SameTriangle(TriangleAt(back, k), x, y, z);
      var shifted := |front| / 3 + k;
      assert TriangleAt(front + back, shifted) == TriangleAt(back, k);
    }
  }

  /**
    Only a triangle of the back part can use a corner past every index of the
    front part.
  */
  lemma {:induction false} HasTriangleOnlyAfter(front: seq<nat>, back: seq<nat>, x: nat, y: nat, z: nat)
    requires |front| % 3 == 0
    requires forall i :: 0 <= i < |front| ==> front[i] < x
    ensures HasTriangle(front + back, x, y, z) ==> HasTriangle(back, x, y, z)
  {
    if HasTriangle(front + back, x, y, z) {
      var all := front + back;
      var k :| 0 <= k < |all| && 3 * k + 2 < |all| && SameTriangle(TriangleAt(all, k), x, y, z);
      if 3 * k < |front| {
        assert false;
      }
      var inBack := k - |front| / 3;
      assert TriangleAt(back, inBack) == TriangleAt(all, k);
    }
  }

  /**
    In the whole buffer a complete cap closes its half-disc: every two
    neighbours on the rim (from `indexA` over the fan to `indexB`) form a
    triangle with the centre.
  */
  lemma AddCapClosesFan(line: FlexLine, trig: Trig, b: Buffers, origin: Vec2, segment: Vec2,
                        indexA: nat, indexB: nat, index: nat, side: real)
    requires Valid(line) && index < |line.locations|
    requires line.cornerStyle.Rounded? && WholeTriangles(b)
    ensures var r := AddCap(line, trig, b, origin, segment, indexA, indexB, index, side);
      var t := CapTriangles(line.cornerStyle.resolution);
      var rim := CapRim(|b.vertices|, indexA, indexB, t);
      forall j :: 0 <= j <= t ==> HasTriangle(r.indices, |b.vertices|, rim[j], rim[j + 1])
  {
    var o := |b.vertices|;
    var t := CapTriangles(line.cornerStyle.resolution);
    var rim := CapRim(o, indexA, indexB, t);
    CapCoversRim(o, indexA, indexB, t);
    forall j | 0 <= j <= t
      ensures HasTriangle(b.indices + CapIndices(o, indexA, indexB, t), o, rim[j], rim[j + 1])
    {
      HasTriangleAfter(b.indices, CapIndices(o, indexA, indexB, t), o, rim[j], rim[j + 1]);
    }
  }

  /**
    In the whole buffer the cap as written, at resolution 8 or 9, leaves a
    hole: no triangle anywhere joins the centre to its two fan vertices.
  */
  lemma AddCapAsWrittenLeavesHole(line: FlexLine, trig: Trig, b: Buffers, origin: Vec2, segment: Vec2,
                                  indexA: nat, indexB: nat, index: nat, side: real)
    requires Valid(line) && index < |line.locations|
    requires line.cornerStyle.Rounded? && 8 <= line.cornerStyle.resolution <= 9
    requires InBounds(b) && WholeTriangles(b) && indexA < |b.vertices| && indexB < |b.vertices|
    ensures var r := AddCapAsWritten(line, trig, b, origin, segment, indexA, indexB, index, side);
      var o := |b.vertices|;
      !HasTriangle(r.indices, o, o + 1, o + 2)
  {
    CapTrianglesCount(line.cornerStyle.resolution);
    var o := |b.vertices|;
    var cap := CapIndicesAsWritten(o, indexA, indexB, 2);
    CapAsWrittenHasGap(o, indexA, indexB);
    HasTriangleOnlyAfter(b.indices, cap, o, o + 1, o + 2);
  }

  /**
    The centre of a cap is the midpoint of its end pair, which sits on the
    stroke's centre line: on the path point shifted by half the difference of
    the two side widths (the path point itself for a centred stroke).
  */
  lemma CapOriginOnCentreLine(p: Vec2, u: Vec2, lw: real, rw: real)
    ensures Midpoint(Add(p, Scale(u, lw)), Sub(p, Scale(u, rw))) == Add(p, Scale(u, (lw - rw) / 2.0))
    ensures lw == rw ==> Midpoint(Add(p, Scale(u, lw)), Sub(p, Scale(u, rw))) == p
  {
    assert (p.x + u.x * lw + (p.x - u.x * rw)) / 2.0 == p.x + u.x * ((lw - rw) / 2.0);
    assert (p.y + u.y * lw + (p.y - u.y * rw)) / 2.0 == p.y + u.y * ((lw - rw) / 2.0);
  }

  /**
    The centre of the end cap: the midpoint of the end points of the last
    segment's two offset edges, on the centre line through the last location.
  */
  function EndCapOrigin(line: FlexLine, trig: Trig): (o: Vec2)
    requires |line.locations| >= 2
    ensures var n := |line.locations|;
      var u := UnitPerp(trig.invSqrt, Sub(line.locations[n - 1], line.locations[n - 2]));
      o == Add(line.locations[n - 1], Scale(u, (LineLeftWidth(line) - LineRightWidth(line)) / 2.0))
  {
    var n := |line.locations|;
    var lw, rw := LineLeftWidth(line), LineRightWidth(line);
    var last, secondLast := line.locations[n - 1], line.locations[n - 2];
    var left, right := LeftSideSegment(trig.invSqrt, secondLast, last, lw), RightSideSegment(trig.invSqrt, secondLast, last, rw);
    var u := UnitPerp(trig.invSqrt, Sub(last, secondLast));
    assert left.1 == Add(last, Scale(u, lw));
    CapOriginOnCentreLine(last, u, lw, rw);
    Midpoint(left.1, right.1)
  }

  /** The centre of the start cap, likewise on the centre line through the first location. */
  function StartCapOrigin(line: FlexLine, trig: Trig): (o: Vec2)
    requires |line.locations| >= 2
    ensures var u := UnitPerp(trig.invSqrt, Sub(line.locations[1], line.locations[0]));
      o == Add(line.locations[0], Scale(u, (LineLeftWidth(line) - LineRightWidth(line)) / 2.0))
  {
    var lw, rw := LineLeftWidth(line), LineRightWidth(line);
    var first, second := line.locations[0], line.locations[1];
    var left, right := LeftSideSegment(trig.invSqrt, first, second, lw), RightSideSegment(trig.invSqrt, first, second, rw);
    var u := UnitPerp(trig.invSqrt, Sub(second, first));
    assert left.0 == Add(first, Scale(u, lw));
    CapOriginOnCentreLine(first, u, lw, rw);
    Midpoint(left.0, right.0)
  }

  /**
    The end cap of `calc_caps`, fanning from the last pair's right vertex (the
    buffer's last vertex) round to its left one.
  */
  function EndCap(line: FlexLine, trig: Trig, b: Buffers): (r: Buffers)
    requires Valid(line) && |b.vertices| >= 2
    ensures Extends(b, r)
    ensures line.cornerStyle.Sharp? ==> r == b
    ensures line.cornerStyle.Rounded? ==>
      var t, m := CapTriangles(line.cornerStyle.resolution), |b.vertices|;
      |r.vertices| == m + t + 1 && r.indices == b.indices + CapIndicesAsWritten(m, m - 1, m - 2, t)
    ensures Lockstep(b) ==> Lockstep(r)
    ensures InBounds(b) ==> InBounds(r)
  {
    var n, m := |line.locations|, |b.vertices|;
    AddCapAsWritten(line, trig, b, EndCapOrigin(line, trig), Sub(line.locations[n - 2], line.locations[n - 1]),
                    m - 1, m - 2, n - 1, -1.0)
  }

  /** The start cap of `calc_caps`, fanning from vertex 0 (the first pair's left vertex) to vertex 1. */
  function StartCap(line: FlexLine, trig: Trig, b: Buffers): (r: Buffers)
    requires Valid(line) && |b.vertices| >= 2
    ensures Extends(b, r)
    ensures line.cornerStyle.Sharp? ==> r == b
    ensures line.cornerStyle.Rounded? ==>
      var t, m := CapTriangles(line.cornerStyle.resolution), |b.vertices|;
      |r.vertices| == m + t + 1 && r.indices == b.indices + CapIndicesAsWritten(m, 0, 1, t)
    ensures Lockstep(b) ==> Lockstep(r)
    ensures InBounds(b) ==> InBounds(r)
  {
    AddCapAsWritten(line, trig, b, StartCapOrigin(line, trig), Sub(line.locations[1], line.locations[0]), 0, 1, 0, 1.0)
  }

  /**
    `calc_caps`: the end cap, then the start cap, both as the source writes
    them.
  */
  function CalcCaps(line: FlexLine, trig: Trig, b: Buffers): (r: Buffers)
    requires Valid(line) && |b.vertices| >= 2
    ensures Extends(b, r)
    ensures line.cornerStyle.Sharp? ==> r == b
    ensures line.cornerStyle.Rounded? ==>
      var t := CapTriangles(line.cornerStyle.resolution);
      var n := |b.vertices|;
      |r.vertices| == n + 2 * (t + 1)
    ensures Lockstep(b) ==> Lockstep(r)
    ensures InBounds(b) ==> InBounds(r)
  {
    var withEnd := EndCap(line, trig, b);
    var r := StartCap(line, trig, withEnd);
    ExtendsTransitive(b, withEnd, r);
    r
  }

  /**
    The triangles `calc_caps` appends: the end cap's around the new vertex
    `n`, fanning from `n - 1` to `n - 2`, then the start cap's around
    `n + t + 1`, fanning from 0 to 1.
  */
  lemma CalcCapsIndices(line: FlexLine, trig: Trig, b: Buffers)
    requires Valid(line) && |b.vertices| >= 2 && line.cornerStyle.Rounded?
    ensures CalcCaps(line, trig, b).indices
      == CappedIndices(b.indices, |b.vertices|, CapTriangles(line.cornerStyle.resolution))
  {
    var withEnd := EndCap(line, trig, b);
    var t, n := CapTriangles(line.cornerStyle.resolution), |b.vertices|;
    EndCapAt(line, trig, b, n, t);
    StartCapAt(line, trig, withEnd, n + t + 1, t);
  }

  /** `EndCap`'s triangles, stated for the caller's own names of its centre and triangle count. */
  lemma EndCapAt(line: FlexLine, trig: Trig, b: Buffers, o: nat, t: nat)
    requires Valid(line) && |b.vertices| >= 2 && line.cornerStyle.Rounded?
    requires o == |b.vertices| && t == CapTriangles(line.cornerStyle.resolution)
    ensures EndCap(line, trig, b).indices == b.indices + CapIndicesAsWritten(o, o - 1, o - 2, t)
  {
  }

  /**
    The triangles of an open path with `n` body vertices once `calc_caps` has
    run: the body's own, then the end cap's fan around vertex `n`, then the
    start cap's fan around vertex `n + t + 1`.
  */
  function CappedIndices(band: seq<nat>, n: nat, t: nat): seq<nat>
    requires n >= 2 && t >= 1
  {
    band + CapIndicesAsWritten(n, n - 1, n - 2, t) + CapIndicesAsWritten(n + t + 1, 0, 1, t)
  }

  /** `StartCap`'s triangles, stated for the caller's own names of its centre and triangle count. */
  lemma StartCapAt(line: FlexLine, trig: Trig, b: Buffers, o: nat, t: nat)
    requires Valid(line) && |b.vertices| >= 2 && line.cornerStyle.Rounded?
    requires o == |b.vertices| && t == CapTriangles(line.cornerStyle.resolution)
    ensures StartCap(line, trig, b).indices == b.indices + CapIndicesAsWritten(o, 0, 1, t)
  {
  }
}

=== FILE: corners.dfy ===
/**
  What `FlexLine::add_corner` emits for one location: the end pair of an open
  path, a mitred (sharp) corner, or a rounded corner's fan of pairs.

  The transcendental values the source computes with `f32` trigonometry come
  from a `Trig` record instead; everything else (offsets, intersections,
  projections, index arithmetic) is computed here.
*/
module Corners {
  import opened Options
  import opened Geometry
  import opened Style
  import opened Buffers

  /**
    Values the model takes as given.
    - `invSqrt(d)`: 1 / sqrt(d), used by every `normalize`.
    - `originShift(i)`: at a rounded corner on location `i`, the vector
      `towards_origo * (radius / sin(corner_angle / 2))` from the intersection
      of the inner offset edges to the centre of the arc.
    - `fanSteps(i)`: `(resolution / (2 pi) * (corner_angle - pi)) as i32` there.
    - `arcTurn(i, j)`: `Vec2::from_angle(j * angle_step_size)` there.
    - `capTurn(t, j)`: `Vec2::from_angle(j * pi / (t + 1))` for a cap of `t` triangles.
    - `capSine(t, j)`: `sin(j * pi / (t + 1) - pi / 2)` for such a cap.
  */
  datatype Trig = Trig(
    invSqrt: real -> real,
    originShift: nat -> Vec2,
    fanSteps: nat -> int,
    arcTurn: (nat, nat) -> Vec2,
    capTurn: (nat, nat) -> Vec2,
    capSine: (nat, nat) -> real)

  /** Pushes the pair of location `index`, coloured for that location. */
  function PushLocationPair(line: FlexLine, b: Buffers, index: nat, left: Vec2, right: Vec2): (r: Buffers)
    requires Valid(line) && index < |line.locations|
    ensures Extends(b, r) && r.indices == b.indices
    ensures |r.vertices| == |b.vertices| + 2
    ensures r.vertices[|b.vertices|] == left && r.vertices[|b.vertices| + 1] == right
    ensures Lockstep(b) ==> Lockstep(r)
    ensures Lockstep(b) ==>
      (r.colors[|b.vertices|] == Sample(line.color, index, -1.0)
       && r.colors[|b.vertices| + 1] == Sample(line.color, index, 1.0))
  {
    PushPair(b, left, right, Sample(line.color, index, -1.0), Sample(line.color, index, 1.0))
  }

  // ---------------------------------------------------------------- open ends

  /**
    The pair at the first location of an open path: the start points of the
    first segment's left and right offsets.
  */
  function StartPair(line: FlexLine, trig: Trig): (Vec2, Vec2)
    requires |line.locations| >= 2
  {
    var location := line.locations[0];
    var next := line.locations[1];
    (LeftSideSegment(trig.invSqrt, location, next, LineLeftWidth(line)).0,
     RightSideSegment(trig.invSqrt, location, next, LineRightWidth(line)).0)
  }

  /**
    The pair at the last location of an open path: the end points of the
    last segment's left and right offsets.
  */
  function EndPair(line: FlexLine, trig: Trig): (Vec2, Vec2)
    requires |line.locations| >= 2
  {
    var n := |line.locations|;
    var prev := line.locations[n - 2];
    var location := line.locations[n - 1];
    (LeftSideSegment(trig.invSqrt, prev, location, LineLeftWidth(line)).1,
     RightSideSegment(trig.invSqrt, prev, location, LineRightWidth(line)).1)
  }

  /**
    An end pair lies square across its segment: the left vertex is the right
    vertex moved the full stroke width along the segment's left normal, and
    the path point lies between them at the alignment's split.
  */
  lemma EndPairsSpanWidth(line: FlexLine, trig: Trig)
    requires |line.locations| >= 2
    ensures var n := |line.locations|;
      var (l0, r0) := StartPair(line, trig);
      var (l1, r1) := EndPair(line, trig);
      var s := UnitPerp(trig.invSqrt, Sub(line.locations[1], line.locations[0]));
      var e := UnitPerp(trig.invSqrt, Sub(line.locations[n - 1], line.locations[n - 2]));
      Sub(l0, r0) == Scale(s, line.width) && Sub(l1, r1) == Scale(e, line.width)
      && l0 == Add(line.locations[0], Scale(s, LineLeftWidth(line)))
      && r0 == Sub(line.locations[0], Scale(s, LineRightWidth(line)))
      && l1 == Add(line.locations[n - 1], Scale(e, LineLeftWidth(line)))
      && r1 == Sub(line.locations[n - 1], Scale(e, LineRightWidth(line)))
  {
    var n := |line.locations|;
    var lw, rw := LineLeftWidth(line), LineRightWidth(line);
    AlignmentSplitsWidth(line.alignment, line.width);
    var s := UnitPerp(trig.invSqrt, Sub(line.locations[1], line.locations[0]));
    var e := UnitPerp(trig.invSqrt, Sub(line.locations[n - 1], line.locations[n - 2]));
    SplitOffset(line.locations[0], s, lw, rw, line.width);
    SplitOffset(line.locations[n - 1], e, lw, rw, line.width);
  }

  lemma SplitOffset(p: Vec2, u: Vec2, lw: real, rw: real, w: real)
    requires lw + rw == w
    ensures Sub(Add(p, Scale(u, lw)), Sub(p, Scale(u, rw))) == Scale(u, w)
  {
    assert u.x * lw + u.x * rw == u.x * w;
    assert u.y * lw + u.y * rw == u.y * w;
  }

  // ---------------------------------------------------------------- sharp corners

  /** The corner at `location` turns far enough for its offset edges to meet. */
  predicate Turns(prev: Vec2, location: Vec2, next: Vec2) {
    Abs(PerpDot(Sub(location, prev), Sub(location, next))) >= ParallelTolerance
  }

  /** The intersection of the edge offset from prev -> location with the one offset from location -> next. */
  function MiterPoint(e1: (Vec2, Vec2), e2: (Vec2, Vec2)): Option<Vec2> {
    IntersectionPoint(e1.0, Sub(e1.1, e1.0), e2.1, Sub(e2.0, e2.1))
  }

  /**
    `add_sharp_corner`: intersects the two left offset edges and the two right
    offset edges. When both meet, their meeting points are pushed as the pair of
    location `index` and joined to the pair of location `prevIdx`, addressing
    both pairs as `2 * location` (a numbering that assumes every earlier
    corner pushed exactly one pair). When either edge pair is parallel nothing
    is emitted.
  */
  function AddSharpCorner(line: FlexLine, trig: Trig, b: Buffers, index: nat, prevIdx: nat, nextIdx: nat): (r: Buffers)
    requires Valid(line)
    requires index < |line.locations| && prevIdx < |line.locations| && nextIdx < |line.locations|
    ensures Extends(b, r)
    ensures var prev, location, next := line.locations[prevIdx], line.locations[index], line.locations[nextIdx];
      if Turns(prev, location, next) then
        |r.vertices| == |b.vertices| + 2
        && r.indices == b.indices + Quad(2 * prevIdx, 2 * prevIdx + 1, 2 * index, 2 * index + 1)
      else r == b
    ensures Lockstep(b) ==> Lockstep(r)
  {
    var location := line.locations[index];
    var prev := line.locations[prevIdx];
    var next := line.locations[nextIdx];
    var leftA := LeftSideSegment(trig.invSqrt, prev, location, LineLeftWidth(line));
    var leftB := LeftSideSegment(trig.invSqrt, location, next, LineLeftWidth(line));
    var rightA := RightSideSegment(trig.invSqrt, prev, location, LineRightWidth(line));
    var rightB := RightSideSegment(trig.invSqrt, location, next, LineRightWidth(line));
    var leftMeet := MiterPoint(leftA, leftB);
    var rightMeet := MiterPoint(rightA, rightB);
    OffsetEdgesMeetIffTurns(prev, location, next, leftA, leftB);
    OffsetEdgesMeetIffTurns(prev, location, next, rightA, rightB);
    if leftMeet.Some? && rightMeet.Some? then
      var pushed := PushLocationPair(line, b, index, leftMeet.value, rightMeet.value);
      pushed.(indices := AddQuadIndices(pushed.indices, 2 * prevIdx, 2 * prevIdx + 1, 2 * index, 2 * index + 1))
    else b
  }

  /** The pair an emitting sharp corner pushes is coloured for its location, at gradient -1 on the left and +1 on the right. */
  lemma SharpCornerColors(line: FlexLine, trig: Trig, b: Buffers, index: nat, prevIdx: nat, nextIdx: nat)
    requires Valid(line)
    requires index < |line.locations| && prevIdx < |line.locations| && nextIdx < |line.locations|
    requires Lockstep(b) && Turns(line.locations[prevIdx], line.locations[index], line.locations[nextIdx])
    ensures AddSharpCorner(line, trig, b, index, prevIdx, nextIdx).colors[|b.vertices|] == Sample(line.color, index, -1.0)
    ensures AddSharpCorner(line, trig, b, index, prevIdx, nextIdx).colors[|b.vertices| + 1] == Sample(line.color, index, 1.0)
  {
  }

  /**
    A sharp corner next to a zero-length segment (a location repeated) never
    turns, so it emits nothing.
  */
  lemma ZeroSegmentEmitsNothing(line: FlexLine, trig: Trig, b: Buffers, index: nat, prevIdx: nat, nextIdx: nat)
    requires Valid(line)
    requires index < |line.locations| && prevIdx < |line.locations| && nextIdx < |line.locations|
    requires line.locations[prevIdx] == line.locations[index] || line.locations[index] == line.locations[nextIdx]
    ensures !Turns(line.locations[prevIdx], line.locations[index], line.locations[nextIdx])
    ensures AddSharpCorner(line, trig, b, index, prevIdx, nextIdx) == b
  {
    var prev, location, next := line.locations[prevIdx], line.locations[index], line.locations[nextIdx];
    if prev == location {
      assert Sub(location, prev) == Zero;
    } else {
      assert Sub(location, next) == Zero;
    }
    assert PerpDot(Sub(location, prev), Sub(location, next)) == 0.0;
  }

  /**
    Offset edges run parallel to the path segments they come from, so they
    meet exactly when the path turns at the corner.
  */
  lemma OffsetEdgesMeetIffTurns(prev: Vec2, location: Vec2, next: Vec2, e1: (Vec2, Vec2), e2: (Vec2, Vec2))
    requires Sub(e1.1, e1.0) == Sub(location, prev)
    requires Sub(e2.1, e2.0) == Sub(next, location)
    ensures MiterPoint(e1, e2).Some? <==> Turns(prev, location, next)
  {
    assert Sub(e2.0, e2.1) == Sub(location, next);
  }

  /**
    A sharp corner's pair are the mitre points: the left vertex lies on both
    left offset edges and the right vertex on both right offset edges.
  */
  lemma SharpCornerIsMiter(line: FlexLine, trig: Trig, b: Buffers, index: nat, prevIdx: nat, nextIdx: nat)
    requires Valid(line)
    requires index < |line.locations| && prevIdx < |line.locations| && nextIdx < |line.locations|
    requires Turns(line.locations[prevIdx], line.locations[index], line.locations[nextIdx])
    ensures var prev, location, next := line.locations[prevIdx], line.locations[index], line.locations[nextIdx];
      var r := AddSharpCorner(line, trig, b, index, prevIdx, nextIdx);
      var lw, rw := LineLeftWidth(line), LineRightWidth(line);
      var leftA := LeftSideSegment(trig.invSqrt, prev, location, lw);
      var leftB := LeftSideSegment(trig.invSqrt, location, next, lw);
      var rightA := RightSideSegment(trig.invSqrt, prev, location, rw);
      var rightB := RightSideSegment(trig.invSqrt, location, next, rw);
      var l, rv := r.vertices[|b.vertices|], r.vertices[|b.vertices| + 1];
      OnLine(l, leftA.0, Sub(location, prev)) && OnLine(l, leftB.1, Sub(location, next))
      && OnLine(rv, rightA.0, Sub(location, prev)) && OnLine(rv, rightB.1, Sub(location, next))
  {
    var prev, location, next := line.locations[prevIdx], line.locations[index], line.locations[nextIdx];
    var lw, rw := LineLeftWidth(line), LineRightWidth(line);
    var leftA := LeftSideSegment(trig.invSqrt, prev, location, lw);
    var leftB := LeftSideSegment(trig.invSqrt, location, next, lw);
    var rightA := RightSideSegment(trig.invSqrt, prev, location, rw);
    var rightB := RightSideSegment(trig.invSqrt, location, next, rw);
    OffsetEdgesMeetIffTurns(prev, location, next, leftA, leftB);
    OffsetEdgesMeetIffTurns(prev, location, next, rightA, rightB);
    assert Sub(leftB.0, leftB.1) == Sub(location, next);
    assert Sub(rightB.0, rightB.1) == Sub(location, next);
  }

  // ---------------------------------------------------------------- rounded corners

  /** `2.max(fan_steps)`: a rounded corner is split into at least two steps. */
  function FanCount(trig: Trig, index: nat): (c: nat)
    ensures c >= 2 && c >= trig.fanSteps(index)
    ensures trig.fanSteps(index) >= 2 ==> c == trig.fanSteps(index)
  {
    if trig.fanSteps(index) > 2 then trig.fanSteps(index) as nat else 2
  }

  /** The geometry of one rounded corner, fixed before its pairs are emitted. */
  datatype Arc = Arc(origin: Vec2, outVec: Vec2, innerRadius: real, outerRadius: real, turnsRight: bool)

  /** Pair number `j` of an arc: a point at each radius on the `j`-th ray, left edge first. */
  function ArcPair(trig: Trig, index: nat, arc: Arc, j: nat): (Vec2, Vec2) {
    var dir := Normalize(trig.invSqrt, Rotate(trig.arcTurn(index, j), arc.outVec));
    var outer := Add(arc.origin, Scale(dir, arc.outerRadius));
    var inner := Add(arc.origin, Scale(dir, arc.innerRadius));
    if arc.turnsRight then (outer, inner) else (inner, outer)
  }

  /**
    With an exact square root and a unit turn both vertices of an arc pair lie
    on one ray from the arc's centre, at the inner and the outer radius: the
    fan is a ring sector whose thickness is the stroke width.
  */
  lemma ArcPairOnRay(trig: Trig, index: nat, arc: Arc, j: nat)
    requires arc.outVec != Zero
    requires var turn := trig.arcTurn(index, j);
      Dot(turn, turn) == 1.0
      && InvSqrtAt(trig.invSqrt, Dot(Rotate(turn, arc.outVec), Rotate(turn, arc.outVec)))
    ensures var (l, r) := ArcPair(trig, index, arc, j);
      var outer := if arc.turnsRight then l else r;
      var inner := if arc.turnsRight then r else l;
      Dot(Sub(outer, arc.origin), Sub(outer, arc.origin)) == arc.outerRadius * arc.outerRadius
      && Dot(Sub(inner, arc.origin), Sub(inner, arc.origin)) == arc.innerRadius * arc.innerRadius
      && PerpDot(Sub(outer, arc.origin), Sub(inner, arc.origin)) == 0.0
  {
    var v := Rotate(trig.arcTurn(index, j), arc.outVec);
    var dir := Normalize(trig.invSqrt, v);
    NormalizeIsUnit(trig.invSqrt, v);
    ScaledLength(dir, arc.outerRadius);
    ScaledLength(dir, arc.innerRadius);
    ScaledParallel(dir, arc.outerRadius, arc.innerRadius);
    var outer := Add(arc.origin, Scale(dir, arc.outerRadius));
    var inner := Add(arc.origin, Scale(dir, arc.innerRadius));
    assert Sub(outer, arc.origin) == Scale(dir, arc.outerRadius);
    assert Sub(inner, arc.origin) == Scale(dir, arc.innerRadius);
  }

  lemma ScaledLength(u: Vec2, k: real)
    requires Dot(u, u) == 1.0
    ensures Dot(Scale(u, k), Scale(u, k)) == k * k
  {
    assert Dot(Scale(u, k), Scale(u, k)) == k * k * Dot(u, u);
  }

  lemma ScaledParallel(u: Vec2, k1: real, k2: real)
    ensures PerpDot(Scale(u, k1), Scale(u, k2)) == 0.0
  {
    assert PerpDot(Scale(u, k1), Scale(u, k2)) == k1 * k2 * (u.x * u.y - u.y * u.x);
  }

  /**
    The loop of `add_rounded_corner` after `j` of its rounds: each round pushes
    pair `i` of the arc and joins it to the pair before it.
  */
  function Fan(line: FlexLine, trig: Trig, b: Buffers, index: nat, arc: Arc, j: nat): (r: Buffers)
    requires Valid(line) && index < |line.locations|
    requires |b.vertices| >= 2
    ensures Extends(b, r)
    ensures |r.vertices| == |b.vertices| + 2 * j
    ensures |r.indices| == |b.indices| + 6 * j
    ensures forall i :: 0 <= i < j ==>
      r.vertices[|b.vertices| + 2 * i] == ArcPair(trig, index, arc, i).0
      && r.vertices[|b.vertices| + 2 * i + 1] == ArcPair(trig, index, arc, i).1
    ensures Lockstep(b) ==> Lockstep(r)
    ensures IsStrip(b) ==> IsStrip(r)
    decreases j
  {
    if j == 0 then b
    else
      var before := Fan(line, trig, b, index, arc, j - 1);
      var pair := ArcPair(trig, index, arc, j - 1);
      var pushed := PushLocationPair(line, before, index, pair.0, pair.1);
      PushPairKeepsStrip(before, pair.0, pair.1, Sample(line.color, index, -1.0), Sample(line.color, index, 1.0));
      var r := AddQuadOnLast(pushed);
      FanStepPairs(trig, index, arc, j, |b.vertices|, before.vertices, r.vertices);
      r
  }

  /** One more round of the fan keeps the arc's earlier pairs where they were and puts pair `j - 1` after them. */
  lemma FanStepPairs(trig: Trig, index: nat, arc: Arc, j: nat, m: nat, before: seq<Vec2>, after: seq<Vec2>)
    requires j >= 1 && |before| == m + 2 * (j - 1) && before <= after && |after| == |before| + 2
    requires forall i :: 0 <= i < j - 1 ==>
      before[m + 2 * i] == ArcPair(trig, index, arc, i).0 && before[m + 2 * i + 1] == ArcPair(trig, index, arc, i).1
    requires after[|before|] == ArcPair(trig, index, arc, j - 1).0
    requires after[|before| + 1] == ArcPair(trig, index, arc, j - 1).1
    ensures forall i :: 0 <= i < j ==>
      after[m + 2 * i] == ArcPair(trig, index, arc, i).0 && after[m + 2 * i + 1] == ArcPair(trig, index, arc, i).1
  {
    forall i | 0 <= i < j - 1
      ensures after[m + 2 * i] == before[m + 2 * i] && after[m + 2 * i + 1] == before[m + 2 * i + 1]
    {
    }
  }

  /** Every pair of the fan is coloured for its location: the left vertex at gradient -1, the right one at +1. */
  lemma {:induction false} FanColors(line: FlexLine, trig: Trig, b: Buffers, index: nat, arc: Arc, j: nat)
    requires Valid(line) && index < |line.locations|
    requires |b.vertices| >= 2 && Lockstep(b)
    ensures forall i :: 0 <= i < j ==>
      Fan(line, trig, b, index, arc, j).colors[|b.vertices| + 2 * i] == Sample(line.color, index, -1.0)
      && Fan(line, trig, b, index, arc, j).colors[|b.vertices| + 2 * i + 1] == Sample(line.color, index, 1.0)
    decreases j
  {
    if j > 0 {
      FanColors(line, trig, b, index, arc, j - 1);
      var before := Fan(line, trig, b, index, arc, j - 1);
      var pair := ArcPair(trig, index, arc, j - 1);
      var pushed := PushLocationPair(line, before, index, pair.0, pair.1);
      assert Fan(line, trig, b, index, arc, j).colors == pushed.colors;
      PairColorsStep(before.colors, pushed.colors, |b.vertices|, j,
                     Sample(line.color, index, -1.0), Sample(line.color, index, 1.0));
    }
  }

  /** Pushing one more pair coloured `left`, `right` after `j - 1` such pairs gives `j` of them. */
  lemma PairColorsStep(before: seq<Rgba>, after: seq<Rgba>, m: nat, j: nat, left: Rgba, right: Rgba)
    requires j >= 1 && |before| == m + 2 * (j - 1) && before <= after && |after| == |before| + 2
    requires forall i :: 0 <= i < j - 1 ==> before[m + 2 * i] == left && before[m + 2 * i + 1] == right
    requires after[|before|] == left && after[|before| + 1] == right
    ensures forall i :: 0 <= i < j ==> after[m + 2 * i] == left && after[m + 2 * i + 1] == right
  {
    forall i | 0 <= i < j - 1
      ensures after[m + 2 * i] == before[m + 2 * i] && after[m + 2 * i + 1] == before[m + 2 * i + 1]
    {
    }
  }

  /**
    The intersection of the inner offset edges exists whenever the path turns
    by more than the collinearity tolerance, so the source's `unwrap` there
    cannot fail.
  */
  lemma RoundedCornerMeets(prev: Vec2, location: Vec2, next: Vec2, e1: (Vec2, Vec2), e2: (Vec2, Vec2))
    requires OrientationTest(prev, location, next) != Straight
    requires Sub(e1.1, e1.0) == Sub(location, prev)
    requires Sub(e2.1, e2.0) == Sub(next, location)
    ensures MiterPoint(e1, e2).Some?
    ensures prev != location
  {
    OffsetEdgesMeetIffTurns(prev, location, next, e1, e2);
    TurnAreaIsSignedArea(prev, location, next);
  }

  lemma TurnAreaIsSignedArea(prev: Vec2, location: Vec2, next: Vec2)
    ensures PerpDot(Sub(location, prev), Sub(location, next)) == -SignedArea2(prev, location, next)
  {
  }

  /**
    The arc of a rounded corner turning left or right: its centre lies
    `originShift` away from where the inner offset edges meet, and the first
    ray points from the centre to its foot on the outer offset of the incoming
    segment.
  */
  function CornerArc(line: FlexLine, trig: Trig, index: nat, prev: Vec2, location: Vec2, next: Vec2, radius: real): (arc: Arc)
    requires OrientationTest(prev, location, next) != Straight
    ensures arc.turnsRight <==> OrientationTest(prev, location, next) == Right
    ensures arc.innerRadius == radius && arc.outerRadius == radius + line.width
  {
    var right := OrientationTest(prev, location, next) == Right;
    var sideA := if right then RightSideSegment(trig.invSqrt, prev, location, LineRightWidth(line))
                 else LeftSideSegment(trig.invSqrt, prev, location, LineLeftWidth(line));
    var sideB := if right then RightSideSegment(trig.invSqrt, location, next, LineRightWidth(line))
                 else LeftSideSegment(trig.invSqrt, location, next, LineLeftWidth(line));
    RoundedCornerMeets(prev, location, next, sideA, sideB);
    var origin := Add(MiterPoint(sideA, sideB).value, trig.originShift(index));
    // The outer side is offset by the other side's width, as in the source.
    var otherSide := if right then LeftSideSegment(trig.invSqrt, prev, location, LineRightWidth(line))
                     else RightSideSegment(trig.invSqrt, prev, location, LineLeftWidth(line));
    assert otherSide.0 != otherSide.1 by {
      assert Sub(otherSide.1, otherSide.0) == Sub(location, prev);
      assert Sub(location, prev) != Zero;
    }
    var projected := ProjectPointOntoLine(origin, otherSide.0, otherSide.1).value;
    Arc(origin, Sub(projected, origin), radius, radius + line.width, right)
  }

  /**
    `add_rounded_corner`: nothing for a straight corner; otherwise
    `FanCount + 1` pairs along the arc, each joined to the pair before it.
  */
  function AddRoundedCorner(line: FlexLine, trig: Trig, b: Buffers, index: nat,
                            prev: Vec2, location: Vec2, next: Vec2, radius: real): (r: Buffers)
    requires Valid(line) && index < |line.locations|
    requires |b.vertices| >= 2
    ensures Extends(b, r)
    ensures OrientationTest(prev, location, next) == Straight ==> r == b
    ensures OrientationTest(prev, location, next) != Straight ==>
      |r.vertices| == |b.vertices| + 2 * (FanCount(trig, index) + 1)
      && |r.indices| == |b.indices| + 6 * (FanCount(trig, index) + 1)
    ensures Lockstep(b) ==> Lockstep(r)
    ensures IsStrip(b) ==> IsStrip(r)
  {
    if OrientationTest(prev, location, next) == Straight then b
    else
      var arc := CornerArc(line, trig, index, prev, location, next, radius);
      Fan(line, trig, b, index, arc, FanCount(trig, index) + 1)
  }

  /** Every pair a turning rounded corner pushes is coloured for its location, at gradient -1 on the left and +1 on the right. */
  lemma RoundedCornerColors(line: FlexLine, trig: Trig, b: Buffers, index: nat,
                            prev: Vec2, location: Vec2, next: Vec2, radius: real)
    requires Valid(line) && index < |line.locations|
    requires |b.vertices| >= 2 && Lockstep(b)
    requires OrientationTest(prev, location, next) != Straight
    ensures forall i :: 0 <= i <= FanCount(trig, index) ==>
      AddRoundedCorner(line, trig, b, index, prev, location, next, radius).colors[|b.vertices| + 2 * i]
        == Sample(line.color, index, -1.0)
      && AddRoundedCorner(line, trig, b, index, prev, location, next, radius).colors[|b.vertices| + 2 * i + 1]
        == Sample(line.color, index, 1.0)
  {
    var arc := CornerArc(line, trig, index, prev, location, next, radius);
    FanColors(line, trig, b, index, arc, FanCount(trig, index) + 1);
  }

  // ---------------------------------------------------------------- add_corner

  /** The first location of an open path pushes its start pair and no triangles. */
  function StartCorner(line: FlexLine, trig: Trig, b: Buffers): (r: Buffers)
    requires Valid(line)
    ensures Extends(b, r) && r.indices == b.indices
    ensures |r.vertices| == |b.vertices| + 2
    ensures Lockstep(b) ==> Lockstep(r)
    ensures b.vertices == [] && b.indices == [] ==> IsStrip(r)
  {
    var (left, right) := StartPair(line, trig);
    PushLocationPair(line, b, 0, left, right)
  }

  /** The last location of an open path pushes its end pair and joins it to the pair before. */
  function EndCorner(line: FlexLine, trig: Trig, b: Buffers): (r: Buffers)
    requires Valid(line) && |b.vertices| >= 2
    ensures Extends(b, r)
    ensures |r.vertices| == |b.vertices| + 2 && |r.indices| == |b.indices| + 6
    ensures Lockstep(b) ==> Lockstep(r)
    ensures IsStrip(b) ==> IsStrip(r)
  {
    var (left, right) := EndPair(line, trig);
    var index := |line.locations| - 1;
    PushPairKeepsStrip(b, left, right, Sample(line.color, index, -1.0), Sample(line.color, index, 1.0));
    AddQuadOnLast(PushLocationPair(line, b, index, left, right))
  }

  /**
    Whether location `index` pushes anything: the two ends of an open path
    always do; any other location does exactly when its corner is not
    straight (for a sharp corner, when its offset edges meet).
  */
  predicate CornerEmits(line: FlexLine, index: nat)
    requires Valid(line) && index < |line.locations|
  {
    match (PrevIdx(line, index), NextIdx(line, index))
    case (Some(prevIdx), Some(nextIdx)) =>
      var prev, location, next := line.locations[prevIdx], line.locations[index], line.locations[nextIdx];
      if line.cornerStyle.Sharp? then Turns(prev, location, next)
      else OrientationTest(prev, location, next) != Straight
    case _ => true
  }

  /**
    `add_corner`: the first location of an open path pushes its start pair;
    the last pushes its end pair and joins it to the pair before; every other
    location is a corner in the line's corner style. Every location but the
    first of an open path joins onto a pair already pushed.
  */
  function AddCorner(line: FlexLine, trig: Trig, index: nat, b: Buffers): (r: Buffers)
    requires Valid(line) && index < |line.locations|
    requires PrevIdx(line, index).Some? ==> |b.vertices| >= 2
    ensures Extends(b, r)
    ensures |r.vertices| >= 2
    ensures PrevIdx(line, index).None? ==> |r.vertices| == |b.vertices| + 2 && r.indices == b.indices
    ensures PrevIdx(line, index).Some? && NextIdx(line, index).None? ==>
      |r.vertices| == |b.vertices| + 2 && |r.indices| == |b.indices| + 6
    ensures Lockstep(b) ==> Lockstep(r)
    ensures PrevIdx(line, index).None? && b.vertices == [] && b.indices == [] ==> IsStrip(r)
    ensures PrevIdx(line, index).Some? && line.cornerStyle.Rounded? && IsStrip(b) ==> IsStrip(r)
  {
    match PrevIdx(line, index)
    case None => StartCorner(line, trig, b)
    case Some(prevIdx) =>
      match NextIdx(line, index)
      case None => EndCorner(line, trig, b)
      case Some(nextIdx) =>
        match line.cornerStyle
        case Sharp => AddSharpCorner(line, trig, b, index, prevIdx, nextIdx)
        case Rounded(radius, _) =>
          AddRoundedCorner(line, trig, b, index, line.locations[prevIdx], line.locations[index],
                           line.locations[nextIdx], radius)
  }

  /** A location pushes vertices exactly when it emits: at least one pair, and a rounded corner at least three. */
  lemma AddCornerEmits(line: FlexLine, trig: Trig, index: nat, b: Buffers)
    requires Valid(line) && index < |line.locations|
    requires PrevIdx(line, index).Some? ==> |b.vertices| >= 2
    ensures var r := AddCorner(line, trig, index, b);
      (!CornerEmits(line, index) ==> r == b)
      && (CornerEmits(line, index) ==> |r.vertices| >= |b.vertices| + 2)
      && (CornerEmits(line, index) && line.cornerStyle.Rounded? && PrevIdx(line, index).Some? && NextIdx(line, index).Some?
          ==> |r.vertices| >= |b.vertices| + 6)
  {
    if PrevIdx(line, index).Some? && NextIdx(line, index).Some? {
      var prevIdx, nextIdx := PrevIdx(line, index).value, NextIdx(line, index).value;
      var prev, location, next := line.locations[prevIdx], line.locations[index], line.locations[nextIdx];
      if line.cornerStyle.Sharp? {
        SharpCornerEmits(line, trig, index, b, prevIdx, nextIdx);
      } else {
        RoundedCornerEmits(line, trig, index, b, prevIdx, nextIdx);
      }
    }
  }

  lemma SharpCornerEmits(line: FlexLine, trig: Trig, index: nat, b: Buffers, prevIdx: nat, nextIdx: nat)
    requires Valid(line) && index < |line.locations| && line.cornerStyle.Sharp?
    requires PrevIdx(line, index) == Some(prevIdx) && NextIdx(line, index) == Some(nextIdx)
    requires |b.vertices| >= 2
    ensures var r := AddCorner(line, trig, index, b);
      var turns := Turns(line.locations[prevIdx], line.locations[index], line.locations[nextIdx]);
      CornerEmits(line, index) == turns
      && r == AddSharpCorner(line, trig, b, index, prevIdx, nextIdx)
  {
  }

  lemma RoundedCornerEmits(line: FlexLine, trig: Trig, index: nat, b: Buffers, prevIdx: nat, nextIdx: nat)
    requires Valid(line) && index < |line.locations| && line.cornerStyle.Rounded?
    requires PrevIdx(line, index) == Some(prevIdx) && NextIdx(line, index) == Some(nextIdx)
    requires |b.vertices| >= 2
    ensures var r := AddCorner(line, trig, index, b);
      var prev, location, next := line.locations[prevIdx], line.locations[index], line.locations[nextIdx];
      CornerEmits(line, index) == (OrientationTest(prev, location, next) != Straight)
      && r == AddRoundedCorner(line, trig, b, index, prev, location, next, line.cornerStyle.radius)
  {
  }

  /** The end pair of an open path continues the strip. */
  lemma AddCornerEndKeepsStrip(line: FlexLine, trig: Trig, index: nat, b: Buffers)
    requires Valid(line) && index < |line.locations|
    requires PrevIdx(line, index).Some? && NextIdx(line, index).None?
    requires |b.vertices| >= 2
    ensures IsStrip(b) ==> IsStrip(AddCorner(line, trig, index, b))
  {
    assert AddCorner(line, trig, index, b) == EndCorner(line, trig, b);
  }

  /** The end pair of an open path is joined to the pair pushed just before it. */
  lemma AddCornerEndQuad(line: FlexLine, trig: Trig, index: nat, b: Buffers)
    requires Valid(line) && index < |line.locations|
    requires PrevIdx(line, index).Some? && NextIdx(line, index).None?
    requires |b.vertices| >= 2
    ensures var r, m := AddCorner(line, trig, index, b), |b.vertices|;
      |r.vertices| == m + 2 && r.indices == b.indices + Quad(m - 2, m - 1, m, m + 1)
  {
    assert AddCorner(line, trig, index, b) == EndCorner(line, trig, b);
  }

  /** A sharp corner that turns joins its pair to the previous location's with one quad. */
  lemma AddCornerSharpQuad(line: FlexLine, trig: Trig, index: nat, b: Buffers)
    requires Valid(line) && index < |line.locations| && line.cornerStyle.Sharp?
    requires PrevIdx(line, index).Some? && NextIdx(line, index).Some?
    requires |b.vertices| >= 2
    ensures var r := AddCorner(line, trig, index, b);
      var p := PrevIdx(line, index).value;
      CornerEmits(line, index) ==>
        |r.vertices| == |b.vertices| + 2 && r.indices == b.indices + Quad(2 * p, 2 * p + 1, 2 * index, 2 * index + 1)
  {
    var p, q := PrevIdx(line, index).value, NextIdx(line, index).value;
    assert AddCorner(line, trig, index, b) == AddSharpCorner(line, trig, b, index, p, q);
  }
}

=== FILE: geometry.dfy ===
/**
  The 2D helpers of `src/vector_utils.rs`, over exact reals.

  `normalize` needs a square root. The model receives the reciprocal square
  root as a function `invSqrt` and normalizes `v` to `v * invSqrt(v . v)`, which
  is how `Vec2::normalize` computes it; properties that need a unit vector
  require `invSqrt` to be exact at the argument in question (`InvSqrtAt`).
*/
module Geometry {
  import opened Options

  datatype Vec2 = Vec2(x: real, y: real)

  const Zero := Vec2(0.0, 0.0)

  /** `f32::EPSILON` (2^-23), the collinearity tolerance of the orientation test. */
  const Epsilon: real := 1.0 / 8388608.0

  /** Below this |perp_dot| two directions count as parallel. */
  const ParallelTolerance: real := 0.0000000001

  function Add(a: Vec2, b: Vec2): Vec2 { Vec2(a.x + b.x, a.y + b.y) }

  function Sub(a: Vec2, b: Vec2): Vec2 { Vec2(a.x - b.x, a.y - b.y) }

  function Neg(a: Vec2): Vec2 { Vec2(-a.x, -a.y) }

  function Scale(a: Vec2, k: real): Vec2 { Vec2(a.x * k, a.y * k) }

  function Dot(a: Vec2, b: Vec2): real { a.x * b.x + a.y * b.y }

  /** `perp_dot`: the z component of the cross product of `a` and `b`. */
  function PerpDot(a: Vec2, b: Vec2): real { a.x * b.y - a.y * b.x }

  /** `perp`: `a` turned a quarter turn counter-clockwise. */
  function Perp(a: Vec2): Vec2 { Vec2(-a.y, a.x) }

  function Midpoint(a: Vec2, b: Vec2): Vec2 { Vec2((a.x + b.x) / 2.0, (a.y + b.y) / 2.0) }

  function Abs(r: real): real { if r < 0.0 then -r else r }

  /** `x` lies on the line through `p` with direction `d`. */
  predicate OnLine(x: Vec2, p: Vec2, d: Vec2) { PerpDot(Sub(x, p), d) == 0.0 }

  /** Twice the signed area of the triangle `p1 p2 p3`: positive when it winds counter-clockwise. */
  function SignedArea2(p1: Vec2, p2: Vec2, p3: Vec2): real { PerpDot(Sub(p2, p1), Sub(p3, p1)) }

  function Sq(a: real): real { a * a }

  lemma SquareNonNegative(a: real)
    ensures Sq(a) >= 0.0
  {
  }

  lemma SquarePositive(a: real)
    requires a != 0.0
    ensures Sq(a) > 0.0
  {
    if a > 0.0 {
      assert Sq(a) / a == a;
    } else {
      assert Sq(-a) / -a == -a;
      assert Sq(a) == Sq(-a);
    }
  }

  lemma SquareZero(a: real)
    requires Sq(a) == 0.0
    ensures a == 0.0
  {
    if a != 0.0 {
      SquarePositive(a);
    }
  }

  /** Only the zero vector has squared length 0. */
  lemma DotSelfZero(v: Vec2)
    requires Dot(v, v) == 0.0
    ensures v == Zero
  {
    assert Dot(v, v) == Sq(v.x) + Sq(v.y);
    SquareNonNegative(v.x);
    SquareNonNegative(v.y);
    SquareZero(v.x);
    SquareZero(v.y);
  }

  lemma DotSelfPositive(v: Vec2)
    requires v != Zero
    ensures Dot(v, v) > 0.0
  {
    if Dot(v, v) == 0.0 {
      DotSelfZero(v);
    }
    assert Dot(v, v) == Sq(v.x) + Sq(v.y);
    SquareNonNegative(v.x);
    SquareNonNegative(v.y);
  }

  // ---------------------------------------------------------------- orientation

  datatype Orientation = Left | Right | Straight

  function Mirror(o: Orientation): Orientation {
    match o
    case Left => Right
    case Right => Left
    case Straight => Straight
  }

  /**
    `orientation_test`: which way the path p1 -> p2 -> p3 turns at `p2`.
    Left when `p3` lies beyond the tolerance to the left of the directed line
    p1 -> p2, Right when beyond it to the right, Straight otherwise.
  */
  function OrientationTest(p1: Vec2, p2: Vec2, p3: Vec2): (o: Orientation)
    ensures o == Left <==> SignedArea2(p1, p2, p3) > Epsilon
    ensures o == Right <==> SignedArea2(p1, p2, p3) < -Epsilon
    ensures o == Straight <==> Abs(SignedArea2(p1, p2, p3)) <= Epsilon
  {
    var det := PerpDot(Sub(p2, p1), Sub(p3, p2));
    assert det == SignedArea2(p1, p2, p3);
    if det > Epsilon then Left
    else if det < -Epsilon then Right
    else Straight
  }

  /** Walking the same three points backwards turns the other way. */
  lemma OrientationReversed(p1: Vec2, p2: Vec2, p3: Vec2)
    ensures OrientationTest(p3, p2, p1) == Mirror(OrientationTest(p1, p2, p3))
  {
    assert SignedArea2(p3, p2, p1) == -SignedArea2(p1, p2, p3);
  }

  /** Points on one line (the third is an affine combination of the first two) do not turn. */
  lemma CollinearIsStraight(p1: Vec2, p2: Vec2, k: real)
    ensures OrientationTest(p1, p2, Add(p1, Scale(Sub(p2, p1), k))) == Straight
  {
    var p3 := Add(p1, Scale(Sub(p2, p1), k));
    var u := Sub(p2, p1);
    assert Sub(p3, p1) == Scale(u, k);
    assert PerpDot(u, Scale(u, k)) == k * (u.x * u.y - u.y * u.x);
    assert SignedArea2(p1, p2, p3) == 0.0;
  }

  // ---------------------------------------------------------------- intersection

  /**
    `intersection_point`: the meeting point of the line through `p1` along `d1`
    and the line through `p2` along `d2`; None when the directions are parallel
    within the tolerance.
  */
  function IntersectionPoint(p1: Vec2, d1: Vec2, p2: Vec2, d2: Vec2): (r: Option<Vec2>)
    ensures r.None? <==> Abs(PerpDot(d1, d2)) < ParallelTolerance
    ensures r.Some? ==> OnLine(r.value, p1, d1) && OnLine(r.value, p2, d2)
  {
    var det := PerpDot(d1, d2);
    if Abs(det) < ParallelTolerance then None
    else
      var delta := Vec2(p2.x - p1.x, p2.y - p1.y);
      var t := PerpDot(delta, d2) / det;
      var x := Vec2(p1.x + t * d1.x, p1.y + t * d1.y);
      IntersectionOnLines(p1, d1, p2, d2, t, x);
      Some(x)
  }

  lemma IntersectionOnLines(p1: Vec2, d1: Vec2, p2: Vec2, d2: Vec2, t: real, x: Vec2)
    requires PerpDot(d1, d2) != 0.0
    requires t == PerpDot(Sub(p2, p1), d2) / PerpDot(d1, d2)
    requires x == Vec2(p1.x + t * d1.x, p1.y + t * d1.y)
    ensures OnLine(x, p1, d1) && OnLine(x, p2, d2)
  {
    var det := PerpDot(d1, d2);
    var c := PerpDot(Sub(p2, p1), d2);
    assert Sub(x, p1) == Scale(d1, t);
    assert PerpDot(Scale(d1, t), d1) == t * (d1.x * d1.y - d1.y * d1.x);
    QuotientTimesDivisor(c, det);
    assert t * det == c;
    assert c == (p2.x - p1.x) * d2.y - (p2.y - p1.y) * d2.x;
    assert t * det == t * (d1.x * d2.y) - t * (d1.y * d2.x);
    calc {
      PerpDot(Sub(x, p2), d2);
      (p1.x - p2.x + t * d1.x) * d2.y - (p1.y - p2.y + t * d1.y) * d2.x;
      (p1.x - p2.x) * d2.y + (t * d1.x) * d2.y - (p1.y - p2.y) * d2.x - (t * d1.y) * d2.x;
      { assert (t * d1.x) * d2.y == t * (d1.x * d2.y); assert (t * d1.y) * d2.x == t * (d1.y * d2.x); }
      (p1.x - p2.x) * d2.y - (p1.y - p2.y) * d2.x + t * det;
      { assert (p2.x - p1.x) * d2.y == -((p1.x - p2.x) * d2.y); assert (p2.y - p1.y) * d2.x == -((p1.y - p2.y) * d2.x); }
      -c + t * det;
      0.0;
    }
  }

  /** Two lines that are not parallel meet in exactly one point: the one returned. */
  lemma IntersectionUnique(p1: Vec2, d1: Vec2, p2: Vec2, d2: Vec2, y: Vec2)
    requires IntersectionPoint(p1, d1, p2, d2).Some?
    requires OnLine(y, p1, d1) && OnLine(y, p2, d2)
    ensures IntersectionPoint(p1, d1, p2, d2).value == y
  {
    var x := IntersectionPoint(p1, d1, p2, d2).value;
    var u := Sub(y, x);
    var det := PerpDot(d1, d2);
    assert det != 0.0;
    assert PerpDot(u, d1) == PerpDot(Sub(y, p1), d1) - PerpDot(Sub(x, p1), d1);
    assert PerpDot(u, d2) == PerpDot(Sub(y, p2), d2) - PerpDot(Sub(x, p2), d2);
    assert u.x * d1.y == u.y * d1.x;
    assert u.x * d2.y == u.y * d2.x;
    assert u.x * det == 0.0 by {
      calc {
        u.x * det;
        d1.x * (u.x * d2.y) - d2.x * (u.x * d1.y);
        d1.x * (u.y * d2.x) - d2.x * (u.y * d1.x);
        0.0;
      }
    }
    assert u.y * det == 0.0 by {
      calc {
        u.y * det;
        d1.y * (u.y * d2.x) - d2.y * (u.y * d1.x);
        d1.y * (u.x * d2.y) - d2.y * (u.x * d1.y);
        0.0;
      }
    }
  }

  /** A line never reports an intersection with itself. */
  lemma IdenticalLinesDoNotIntersect(p: Vec2, d: Vec2)
    ensures IntersectionPoint(p, d, p, d).None?
  {
    assert PerpDot(d, d) == 0.0;
  }

  /** `test_inter1`: a horizontal and a vertical line. */
  lemma TestIntersectionPerpendicular()
    ensures IntersectionPoint(Vec2(0.0, 0.0), Vec2(1.0, 0.0), Vec2(2.0, 2.0), Vec2(0.0, -1.0))
            == Some(Vec2(2.0, 0.0))
  {
    var p1, d1, p2, d2 := Vec2(0.0, 0.0), Vec2(1.0, 0.0), Vec2(2.0, 2.0), Vec2(0.0, -1.0);
    assert PerpDot(d1, d2) == -1.0;
    IntersectionUnique(p1, d1, p2, d2, Vec2(2.0, 0.0));
  }

  /** `test_inter2`: opposite directions are parallel. */
  lemma TestIntersectionParallel()
    ensures IntersectionPoint(Vec2(0.0, 0.0), Vec2(1.0, 0.0), Vec2(2.0, 2.0), Vec2(-1.0, 0.0)).None?
  {
  }

  /** `test_inter3`: a diagonal meets the x axis. */
  lemma TestIntersectionDiagonal()
    ensures IntersectionPoint(Vec2(0.0, 0.0), Vec2(10.0, 0.0), Vec2(-1.0, 2.0), Vec2(1.0, -1.0))
            == Some(Vec2(1.0, 0.0))
  {
    var p1, d1, p2, d2 := Vec2(0.0, 0.0), Vec2(10.0, 0.0), Vec2(-1.0, 2.0), Vec2(1.0, -1.0);
    assert PerpDot(d1, d2) == -10.0;
    IntersectionUnique(p1, d1, p2, d2, Vec2(1.0, 0.0));
  }

  // ---------------------------------------------------------------- side offsets

  /** `invSqrt` returns the exact positive reciprocal square root of `d`. */
  predicate InvSqrtAt(invSqrt: real -> real, d: real) {
    invSqrt(d) > 0.0 && invSqrt(d) * invSqrt(d) * d == 1.0
  }

  /** `normalize`: `v` scaled by the reciprocal of its length. */
  function Normalize(invSqrt: real -> real, v: Vec2): Vec2 {
    Scale(v, invSqrt(Dot(v, v)))
  }

  /** With an exact square root a normalized vector has length 1 and keeps its direction. */
  lemma NormalizeIsUnit(invSqrt: real -> real, v: Vec2)
    requires InvSqrtAt(invSqrt, Dot(v, v))
    ensures var n := Normalize(invSqrt, v);
      Dot(n, n) == 1.0 && PerpDot(v, n) == 0.0 && Dot(v, n) > 0.0
  {
    var s := invSqrt(Dot(v, v));
    var n := Scale(v, s);
    assert Dot(n, n) == s * s * Dot(v, v);
    assert PerpDot(v, n) == s * (v.x * v.y - v.y * v.x);
    assert Dot(v, n) == s * Dot(v, v);
    assert v != Zero;
    DotSelfPositive(v);
    assert s * Dot(v, v) > 0.0 by { assert s * Dot(v, v) / s == Dot(v, v); }
  }

  /** `Vec2::rotate` by the unit vector `r` = (cos a, sin a): a turn by the angle a. */
  function Rotate(r: Vec2, v: Vec2): Vec2 {
    Vec2(r.x * v.x - r.y * v.y, r.y * v.x + r.x * v.y)
  }

  /** A rotation scales lengths by |r|, so a unit `r` preserves them. */
  lemma RotateLength(r: Vec2, v: Vec2)
    ensures Dot(Rotate(r, v), Rotate(r, v)) == Dot(r, r) * Dot(v, v)
  {
    var w := Rotate(r, v);
    calc {
      Dot(w, w);
      (r.x * v.x - r.y * v.y) * (r.x * v.x - r.y * v.y) + (r.y * v.x + r.x * v.y) * (r.y * v.x + r.x * v.y);
      (r.x * r.x + r.y * r.y) * (v.x * v.x + v.y * v.y);
    }
  }

  /** `v.perp().normalize()`: the left-hand normal of `v`. */
  function UnitPerp(invSqrt: real -> real, v: Vec2): Vec2 {
    Normalize(invSqrt, Perp(v))
  }

  /** Reversing a direction reverses its normal, whatever `invSqrt` is. */
  lemma UnitPerpOdd(invSqrt: real -> real, v: Vec2)
    ensures UnitPerp(invSqrt, Neg(v)) == Neg(UnitPerp(invSqrt, v))
  {
    var p := Perp(v);
    assert Perp(Neg(v)) == Neg(p);
    assert Dot(Neg(p), Neg(p)) == Dot(p, p);
  }

  /** With an exact square root the normal has length 1, is orthogonal to `v` and points to its left. */
  lemma UnitPerpIsUnitNormal(invSqrt: real -> real, v: Vec2)
    requires v != Zero
    requires InvSqrtAt(invSqrt, Dot(v, v))
    ensures var n := UnitPerp(invSqrt, v);
      Dot(n, n) == 1.0 && Dot(n, v) == 0.0 && PerpDot(v, n) > 0.0
  {
    var p := Perp(v);
    var s := invSqrt(Dot(p, p));
    assert Dot(p, p) == Dot(v, v);
    var n := Scale(p, s);
    assert Dot(n, n) == s * s * Dot(v, v);
    assert Dot(n, v) == s * (-v.y * v.x + v.x * v.y);
    DotSelfPositive(v);
    assert PerpDot(v, n) == s * Dot(v, v);
  }

  /**
    `calc_left_side_segment`: the segment p1 -> p2 moved `width` along its
    left-hand normal. Both endpoints move by the same vector, so the result is
    parallel to p1 -> p2 and just as long.
  */
  function LeftSideSegment(invSqrt: real -> real, p1: Vec2, p2: Vec2, width: real): (r: (Vec2, Vec2))
    ensures Sub(r.1, r.0) == Sub(p2, p1)
    ensures Sub(r.0, p1) == Sub(r.1, p2) == Scale(UnitPerp(invSqrt, Sub(p2, p1)), width)
  {
    var n := UnitPerp(invSqrt, Sub(p2, p1));
    (Add(p1, Scale(n, width)), Add(p2, Scale(n, width)))
  }

  /**
    `calc_right_side_segment`: the left offset of the reversed segment, read
    backwards. That is the segment p1 -> p2 moved `width` against its
    left-hand normal.
  */
  function RightSideSegment(invSqrt: real -> real, p1: Vec2, p2: Vec2, width: real): (r: (Vec2, Vec2))
    ensures Sub(r.1, r.0) == Sub(p2, p1)
    ensures var n := UnitPerp(invSqrt, Sub(p2, p1));
      r.0 == Sub(p1, Scale(n, width)) && r.1 == Sub(p2, Scale(n, width))
  {
    var reverse := LeftSideSegment(invSqrt, p2, p1, width);
    UnitPerpOdd(invSqrt, Sub(p2, p1));
    assert Sub(p1, p2) == Neg(Sub(p2, p1));
    (reverse.1, reverse.0)
  }

  /** With equal widths the two offsets are mirror images about the segment. */
  lemma SideSegmentsMirror(invSqrt: real -> real, p1: Vec2, p2: Vec2, width: real)
    ensures var l := LeftSideSegment(invSqrt, p1, p2, width);
      var r := RightSideSegment(invSqrt, p1, p2, width);
      Add(l.0, r.0) == Scale(p1, 2.0) && Add(l.1, r.1) == Scale(p2, 2.0)
  {
  }

  /** With an exact square root the left offset lies at distance `width`, square to the segment. */
  lemma LeftSideSegmentDistance(invSqrt: real -> real, p1: Vec2, p2: Vec2, width: real)
    requires p1 != p2
    requires InvSqrtAt(invSqrt, Dot(Sub(p2, p1), Sub(p2, p1)))
    ensures var l := LeftSideSegment(invSqrt, p1, p2, width);
      Dot(Sub(l.0, p1), Sub(l.0, p1)) == width * width
      && Dot(Sub(l.0, p1), Sub(p2, p1)) == 0.0
  {
    var v := Sub(p2, p1);
    var n := UnitPerp(invSqrt, v);
    assert v != Zero;
    UnitPerpIsUnitNormal(invSqrt, v);
    var off := Scale(n, width);
    assert Dot(off, off) == width * width * Dot(n, n);
    assert Dot(off, v) == width * Dot(n, v);
  }

  // ---------------------------------------------------------------- projection

  /**
    `project_point_onto_line`: the foot of the perpendicular from `p` to the
    line through `p1` and `p2`. The source divides by |p2 - p1|^2, which yields
    NaN coordinates when the two points coincide; the model answers None there.
  */
  function ProjectPointOntoLine(p: Vec2, p1: Vec2, p2: Vec2): (r: Option<Vec2>)
    ensures r.None? <==> p1 == p2
    ensures r.Some? ==> OnLine(r.value, p1, Sub(p2, p1))
    ensures r.Some? ==> Dot(Sub(p, r.value), Sub(p2, p1)) == 0.0
  {
    var v := Sub(p2, p1);
    var w := Sub(p, p1);
    if p1 == p2 then None
    else
      DotSelfPositive(v);
      var factor := Dot(w, v) / Dot(v, v);
      var r := Add(p1, Scale(v, factor));
      ProjectionProperties(p, p1, v, factor, r);
      Some(r)
  }

  lemma ProjectionProperties(p: Vec2, p1: Vec2, v: Vec2, factor: real, r: Vec2)
    requires Dot(v, v) != 0.0
    requires factor == Dot(Sub(p, p1), v) / Dot(v, v)
    requires r == Add(p1, Scale(v, factor))
    ensures OnLine(r, p1, v)
    ensures Dot(Sub(p, r), v) == 0.0
  {
    var w := Sub(p, p1);
    assert Sub(r, p1) == Scale(v, factor);
    assert PerpDot(Scale(v, factor), v) == factor * (v.x * v.y - v.y * v.x);
    assert factor * Dot(v, v) == Dot(w, v);
    assert Dot(Sub(p, r), v) == Dot(w, v) - factor * Dot(v, v);
  }

  /** Projecting a point that is already on the line leaves it where it is. */
  lemma ProjectionIdempotent(p: Vec2, p1: Vec2, p2: Vec2)
    requires p1 != p2
    ensures var q := ProjectPointOntoLine(p, p1, p2);
      q.Some? && ProjectPointOntoLine(q.value, p1, p2) == q
  {
    var v := Sub(p2, p1);
    DotSelfPositive(v);
    var q := ProjectPointOntoLine(p, p1, p2).value;
    var factor := Dot(Sub(p, p1), v) / Dot(v, v);
    assert q == Add(p1, Scale(v, factor));
    assert Sub(q, p1) == Scale(v, factor);
    assert Dot(Scale(v, factor), v) == factor * Dot(v, v);
    assert Dot(Sub(q, p1), v) / Dot(v, v) == factor;
  }

  /** A point already on the line projects onto itself. */
  lemma ProjectionFixesLinePoints(p1: Vec2, p2: Vec2, k: real)
    requires p1 != p2
    ensures var x := Add(p1, Scale(Sub(p2, p1), k));
      ProjectPointOntoLine(x, p1, p2) == Some(x)
  {
    var v := Sub(p2, p1);
    var x := Add(p1, Scale(v, k));
    DotSelfPositive(v);
    assert Sub(x, p1) == Scale(v, k);
    assert Dot(Scale(v, k), v) == k * Dot(v, v);
    QuotientOfMultiple(Dot(Sub(x, p1), v), Dot(v, v), k);
  }

  lemma QuotientTimesDivisor(a: real, b: real)
    requires b != 0.0
    ensures (a / b) * b == a
  {
  }

  lemma QuotientOfMultiple(a: real, b: real, k: real)
    requires b != 0.0 && a == k * b
    ensures a / b == k
  {
  }
}

=== FILE: mesh.dfy ===
/**
  `FlexLine::make_mesh`: the placeholders of a connected path, the loop over
  every location, then either the caps (open path) or the closing of the ring
  (connected path), and finally the flat colour fill.

  The source panics where the closing step pops from too short a buffer; the
  model answers None there.
*/
module Mesh {
  import opened Options
  import opened Geometry
  import opened Style
  import opened Buffers
  import opened Corners
  import opened Caps

  /**
    The buffers before the loop: empty for an open path; for a connected one a
    placeholder pair, coloured for location 0, that the closing step overwrites.
  */
  function Start(line: FlexLine): (b: Buffers)
    requires Valid(line)
    ensures Lockstep(b) && b.indices == []
    ensures IsConnected(line) ==> |b.vertices| == 2
    ensures !IsConnected(line) ==> b == Empty
  {
    if IsConnected(line) then
      Buffers([Zero, Zero], [], [Sample(line.color, 0, -1.0), Sample(line.color, 0, 1.0)])
    else Empty
  }

  /** The loop `for i in 0..len { add_corner(i) }` after its first `k` rounds. */
  function CornersUpTo(line: FlexLine, trig: Trig, k: nat, b0: Buffers): (r: Buffers)
    requires Valid(line) && k <= |line.locations|
    requires IsConnected(line) ==> |b0.vertices| >= 2
    ensures Extends(b0, r)
    ensures k > 0 || IsConnected(line) ==> |r.vertices| >= 2
    ensures Lockstep(b0) ==> Lockstep(r)
    decreases k
  {
    if k == 0 then b0
    else
      var before := CornersUpTo(line, trig, k - 1, b0);
      var r := AddCorner(line, trig, k - 1, before);
      ExtendsTransitive(b0, before, r);
      r
  }

  /** The buffers once every location has been visited. */
  function Body(line: FlexLine, trig: Trig): (b: Buffers)
    requires Valid(line)
    ensures Lockstep(b) && |b.vertices| >= 2
  {
    CornersUpTo(line, trig, |line.locations|, Start(line))
  }

  /**
    `vertices[1] = vertices.pop().unwrap(); vertices[0] = vertices.pop().unwrap();`
    The right-hand side runs first, so the last element lands in slot 1 and the
    one before it in slot 0; None where the source indexes past the end.
  */
  function MoveLastTwo<T>(v: seq<T>): (r: Option<seq<T>>)
    ensures r.None? <==> |v| < 3
    ensures |v| >= 4 ==> r == Some([v[|v| - 2], v[|v| - 1]] + v[2..|v| - 2])
  {
    if |v| < 3 then None
    else
      var afterFirst := v[..|v| - 1][1 := v[|v| - 1]];
      var popped := afterFirst[|afterFirst| - 1];
      var afterSecond := afterFirst[..|afterFirst| - 1][0 := popped];
      MoveLastTwoShape(v, afterFirst, afterSecond);
      Some(afterSecond)
  }

  lemma MoveLastTwoShape<T>(v: seq<T>, afterFirst: seq<T>, afterSecond: seq<T>)
    requires |v| >= 3
    requires afterFirst == v[..|v| - 1][1 := v[|v| - 1]]
    requires afterSecond == afterFirst[..|afterFirst| - 1][0 := afterFirst[|afterFirst| - 1]]
    ensures |v| >= 4 ==> afterSecond == [v[|v| - 2], v[|v| - 1]] + v[2..|v| - 2]
  {
    if |v| >= 4 {
      var expected := [v[|v| - 2], v[|v| - 1]] + v[2..|v| - 2];
      assert |afterSecond| == |expected|;
      forall i | 0 <= i < |expected|
        ensures afterSecond[i] == expected[i]
      {
        if i >= 2 {
          assert expected[i] == v[i];
        }
      }
    }
  }

  /**
    The closing step of a connected path: the last pair (and its colours)
    moves into the placeholder slots 0 and 1. A rounded path's last quad named
    that pair by its old numbers, so its three references are redirected to 0
    and 1; a sharp path's quads already used the final numbering.
  */
  function CloseRing(line: FlexLine, b: Buffers): (r: Option<Buffers>)
    ensures r.None? <==> |b.vertices| < 3 || |b.colors| < 3 || (line.cornerStyle.Rounded? && |b.indices| < 4)
    ensures r.Some? && |b.vertices| >= 4 ==>
      r.value.vertices == MoveLastTwo(b.vertices).value
    ensures r.Some? && |b.colors| >= 4 ==>
      r.value.colors == MoveLastTwo(b.colors).value
    ensures r.Some? && line.cornerStyle.Sharp? ==> r.value.indices == b.indices
    ensures r.Some? && line.cornerStyle.Rounded? ==>
      var k := |b.indices|;
      |r.value.indices| == k && r.value.indices[..k - 4] == b.indices[..k - 4]
      && r.value.indices[k - 4] == 0 && r.value.indices[k - 3] == b.indices[k - 3]
      && r.value.indices[k - 2] == 1 && r.value.indices[k - 1] == 0
  {
    match (MoveLastTwo(b.vertices), MoveLastTwo(b.colors))
    case (Some(vertices), Some(colors)) =>
      var k := |b.indices|;
      if line.cornerStyle.Sharp? then Some(Buffers(vertices, b.indices, colors))
      else if k < 4 then None
      else Some(Buffers(vertices, b.indices[k - 4 := 0][k - 2 := 1][k - 1 := 0], colors))
    case _ => None
  }

  /** `LineColor::Fill` recolours every vertex at the end; other colourings keep theirs. */
  function FillColors(line: FlexLine, b: Buffers): (r: Buffers)
    ensures r.vertices == b.vertices && r.indices == b.indices
    ensures line.color.Fill? ==> Lockstep(r) && forall i :: 0 <= i < |r.colors| ==> r.colors[i] == line.color.color
    ensures !line.color.Fill? ==> r == b
  {
    if line.color.Fill? then b.(colors := seq(|b.vertices|, _ => line.color.color)) else b
  }

  /**
    `make_mesh`. An open path never fails; a connected one fails exactly where
    the closing step runs out of vertices.
  */
  function MakeMesh(line: FlexLine, trig: Trig): (r: Option<Buffers>)
    requires Valid(line)
    ensures r.None? ==> IsConnected(line)
    ensures r.Some? ==> Lockstep(r.value)
    ensures r.Some? && line.color.Fill? ==>
      forall i :: 0 <= i < |r.value.colors| ==> r.value.colors[i] == line.color.color
  {
    var body := Body(line, trig);
    if !IsConnected(line) then Some(FillColors(line, CalcCaps(line, trig, body)))
    else
      match CloseRing(line, body)
      case None => None
      case Some(closed) =>
        assert |closed.colors| == |closed.vertices| by {
          if |body.vertices| == 3 {
            assert |closed.vertices| == 1 == |closed.colors|;
          }
        }
        Some(FillColors(line, closed))
  }
}

=== FILE: options.dfy ===
/** Rust's `Option`, used for intersections and neighbour indices. */
module Options {

  datatype Option<+T> = None | Some(value: T)

}

=== FILE: style.dfy ===
/**
  The configuration types of `src/flex_line.rs`: colours, alignment, corner and
  connection styles, the `FlexLine` record itself, its constructor and the
  neighbour lookups along the path.

  Colours are kept as the sRGBA channels `LineColor::get` returns; the
  conversion `to_srgba` from other colour spaces is not modelled.
*/
module Style {
  import opened Options
  import opened Geometry

  datatype Rgba = Rgba(red: real, green: real, blue: real, alpha: real)

  /** `Srgba::mix`: each channel moves linearly from `a` (t = 0) to `b` (t = 1). */
  function Mix(a: Rgba, b: Rgba, t: real): Rgba {
    Rgba(a.red * (1.0 - t) + b.red * t,
         a.green * (1.0 - t) + b.green * t,
         a.blue * (1.0 - t) + b.blue * t,
         a.alpha * (1.0 - t) + b.alpha * t)
  }

  /** `x` lies between `a` and `b`, in either order. */
  predicate Between(a: real, x: real, b: real) {
    (a <= x <= b) || (b <= x <= a)
  }

  predicate ChannelsBetween(a: Rgba, c: Rgba, b: Rgba) {
    Between(a.red, c.red, b.red) && Between(a.green, c.green, b.green)
    && Between(a.blue, c.blue, b.blue) && Between(a.alpha, c.alpha, b.alpha)
  }

  lemma MixChannelBetween(a: real, b: real, t: real)
    requires 0.0 <= t <= 1.0
    ensures Between(a, a * (1.0 - t) + b * t, b)
  {
    MixChannelShifted(a, b, t);
    ShiftedBetween(a, b, t);
  }

  lemma MixChannelShifted(a: real, b: real, t: real)
    ensures a * (1.0 - t) + b * t == a + (b - a) * t
  {
  }

  lemma ShiftedBetween(a: real, b: real, t: real)
    requires 0.0 <= t <= 1.0
    ensures Between(a, a + (b - a) * t, b)
  {
    if a <= b {
      ShiftedUp(a, b, t);
    } else {
      ShiftedDown(a, b, t);
    }
  }

  lemma ShiftedUp(a: real, b: real, t: real)
    requires a <= b && 0.0 <= t <= 1.0
    ensures a <= a + (b - a) * t <= b
  {
  }

  lemma ShiftedDown(a: real, b: real, t: real)
    requires b <= a && 0.0 <= t <= 1.0
    ensures b <= a + (b - a) * t <= a
  {
  }

  /** Mixing starts at `a`, ends at `b` and never leaves the box the two span. */
  lemma MixProperties(a: Rgba, b: Rgba, t: real)
    ensures Mix(a, b, 0.0) == a && Mix(a, b, 1.0) == b
    ensures 0.0 <= t <= 1.0 ==> ChannelsBetween(a, Mix(a, b, t), b)
  {
    if 0.0 <= t <= 1.0 {
      MixChannelBetween(a.red, b.red, t);
      MixChannelBetween(a.green, b.green, t);
      MixChannelBetween(a.blue, b.blue, t);
      MixChannelBetween(a.alpha, b.alpha, t);
    }
  }

  datatype LineColor =
    | Fill(color: Rgba)
    | GradientAcross(left: Rgba, right: Rgba)
    | PerVertex(colors: seq<Rgba>)

  /** `LineColor::get` indexes the per-vertex list; any other colour accepts every index. */
  predicate CanSample(c: LineColor, index: nat) {
    c.PerVertex? ==> index < |c.colors|
  }

  /**
    `LineColor::get`: the colour of the vertex of location `index` at position
    `gradient` across the stroke (-1 on the left edge, 1 on the right edge).
  */
  function Sample(c: LineColor, index: nat, gradient: real): (r: Rgba)
    requires CanSample(c, index)
    ensures c.Fill? ==> r == c.color
    ensures c.PerVertex? ==> r == c.colors[index]
    ensures c.GradientAcross? && gradient == -1.0 ==> r == c.left
    ensures c.GradientAcross? && gradient == 1.0 ==> r == c.right
    ensures c.GradientAcross? && -1.0 <= gradient <= 1.0 ==> ChannelsBetween(c.left, r, c.right)
  {
    match c
    case Fill(color) => color
    case GradientAcross(left, right) =>
      var t := (gradient + 1.0) / 2.0;
      MixProperties(left, right, t);
      Mix(left, right, t)
    case PerVertex(colors) => colors[index]
  }

  /** On the centre line of the stroke a gradient gives the average of its two colours. */
  lemma GradientCentreIsAverage(left: Rgba, right: Rgba, index: nat)
    ensures Sample(GradientAcross(left, right), index, 0.0)
      == Rgba((left.red + right.red) / 2.0, (left.green + right.green) / 2.0,
              (left.blue + right.blue) / 2.0, (left.alpha + right.alpha) / 2.0)
  {
  }

  /** Swapping the two gradient colours mirrors the gradient across the stroke. */
  lemma GradientMirror(left: Rgba, right: Rgba, index: nat, gradient: real)
    ensures Sample(GradientAcross(right, left), index, -gradient)
      == Sample(GradientAcross(left, right), index, gradient)
  {
    var t := (gradient + 1.0) / 2.0;
    assert (-gradient + 1.0) / 2.0 == 1.0 - t;
  }

  // ---------------------------------------------------------------- alignment

  /** How the stroke sits on the path; `Offset(d)` shifts its centre `d` to the right. */
  datatype Alignment = Center | LeftSide | RightSide | Offset(offset: real)

  /** `Alignment::left_width`: how far the stroke reaches to the left of the path. */
  function LeftWidth(a: Alignment, width: real): real {
    match a
    case Center => width / 2.0
    case LeftSide => width
    case RightSide => 0.0
    case Offset(offset) => width / 2.0 - offset
  }

  /** `Alignment::right_width`: how far the stroke reaches to the right of the path. */
  function RightWidth(a: Alignment, width: real): real {
    match a
    case Center => width / 2.0
    case LeftSide => 0.0
    case RightSide => width
    case Offset(offset) => width / 2.0 + offset
  }

  /**
    Whatever the alignment, the two sides together are exactly `width` wide;
    the stroke's centre lies `offset` to the right of the path (`Center` is
    `Offset(0)`), and the one-sided alignments put the whole width on one side.
  */
  lemma AlignmentSplitsWidth(a: Alignment, width: real)
    ensures LeftWidth(a, width) + RightWidth(a, width) == width
    ensures a.Offset? ==> RightWidth(a, width) - LeftWidth(a, width) == 2.0 * a.offset
    ensures a == Center ==> LeftWidth(a, width) == RightWidth(a, width)
    ensures a == Center ==> LeftWidth(a, width) == LeftWidth(Offset(0.0), width)
    ensures a == LeftSide ==> RightWidth(a, width) == 0.0
    ensures a == RightSide ==> LeftWidth(a, width) == 0.0
  {
  }

  // ---------------------------------------------------------------- the line

  datatype CornerStyle =
    | Sharp
      /** `resolution` is the number of vertices a full circle would get. */
    | Rounded(radius: real, resolution: nat)

  datatype ConnectionStyle = Connected | Unconnected

  datatype FlexLine = FlexLine(
    locations: seq<Vec2>,
    width: real,
    cornerStyle: CornerStyle,
    alignment: Alignment,
    connectionStyle: ConnectionStyle,
    color: LineColor)

  /**
    `FlexLine::new`: the source asserts at least two locations and panics
    otherwise; the model answers None there. Note the argument order: the
    alignment comes before the corner style.
  */
  function New(locations: seq<Vec2>, width: real, alignment: Alignment, cornerStyle: CornerStyle,
               connectionStyle: ConnectionStyle, color: LineColor): (r: Option<FlexLine>)
    ensures r.Some? <==> |locations| >= 2
    ensures r.Some? ==>
      (r.value.locations == locations && r.value.width == width
       && r.value.alignment == alignment && r.value.cornerStyle == cornerStyle
       && r.value.connectionStyle == connectionStyle && r.value.color == color)
  {
    if |locations| < 2 then None
    else Some(FlexLine(locations, width, cornerStyle, alignment, connectionStyle, color))
  }

  function LineLeftWidth(line: FlexLine): real { LeftWidth(line.alignment, line.width) }

  function LineRightWidth(line: FlexLine): real { RightWidth(line.alignment, line.width) }

  predicate IsConnected(line: FlexLine) { line.connectionStyle == Connected }

  /**
    A line the mesh builder accepts: the two locations `new` asserts, and a
    per-vertex colour for every location (the source indexes the list by
    location and would panic on a short one; the constructor does not check it).
  */
  predicate Valid(line: FlexLine) {
    |line.locations| >= 2
    && (line.color.PerVertex? ==> |line.color.colors| >= |line.locations|)
  }

  /** A valid line's colour can be sampled at every location. */
  lemma ValidCanSample(line: FlexLine, index: nat)
    requires Valid(line) && index < |line.locations|
    ensures CanSample(line.color, index)
  {
  }

  /**
    Every line `New` builds, with enough per-vertex colours, is valid: the
    constructor's assertion is the only other requirement.
  */
  lemma NewIsValid(locations: seq<Vec2>, width: real, alignment: Alignment, cornerStyle: CornerStyle,
                   connectionStyle: ConnectionStyle, color: LineColor)
    requires |locations| >= 2
    requires color.PerVertex? ==> |color.colors| >= |locations|
    ensures var r := New(locations, width, alignment, cornerStyle, connectionStyle, color);
      r.Some? && Valid(r.value)
  {
  }

  // ---------------------------------------------------------------- neighbours

  /**
    `x % n` on the source's unsigned operands, written as repeated
    subtraction so that unfolding it stays linear; `WrapIsMod` shows it is
    the remainder.
  */
  function Wrap(x: nat, n: nat): (r: nat)
    requires n > 0
    ensures r < n
    ensures x < 2 * n ==> r == (if x < n then x else x - n)
    decreases x
  {
    if x < n then x else Wrap(x - n, n)
  }

  /** `Wrap` is Euclidean remainder, which for unsigned operands is the source's `%`. */
  lemma {:induction false} WrapIsMod(x: nat, n: nat)
    requires n > 0
    ensures Wrap(x, n) == x % n
    decreases x
  {
    if x >= n {
      WrapIsMod(x - n, n);
      var q, r := (x - n) / n, (x - n) % n;
      assert x == (q + 1) * n + r;
      ModUnique(x, n, q + 1, r);
    }
  }

  /** The remainder is the only `r` in [0, n) with x = q * n + r. */
  lemma ModUnique(x: int, n: int, q: int, r: int)
    requires n > 0 && 0 <= r < n && x == q * n + r
    ensures x % n == r
  {
    var q', r' := x / n, x % n;
    var d := q - q';
    assert d * n == r' - r by {
      assert q * n - q' * n == d * n;
    }
    if d > 0 {
      MultipleAtLeast(d, n);
    } else if d < 0 {
      MultipleAtLeast(-d, n);
    }
  }

  /** A positive multiple of `n` is at least `n`. */
  lemma MultipleAtLeast(d: int, n: int)
    requires d >= 1 && n > 0
    ensures d * n >= n
  {
    assert d * n == (d - 1) * n + n;
    assert (d - 1) * n >= 0;
  }

  /**
    `get_next_idx`: the location after `idx`. A connected path wraps from the
    last location to the first; an open one has nothing after its last.
    The source takes `len - 1` and `% len`, so it needs a non-empty path.
  */
  function NextIdx(line: FlexLine, idx: nat): (r: Option<nat>)
    requires |line.locations| > 0
    ensures r.Some? ==> r.value < |line.locations|
    ensures r.None? <==> !IsConnected(line) && idx >= |line.locations| - 1
    ensures idx < |line.locations| - 1 ==> r == Some(idx + 1)
    ensures IsConnected(line) && idx == |line.locations| - 1 ==> r == Some(0)
  {
    var n := |line.locations|;
    if IsConnected(line) || idx < n - 1 then Some(Wrap(idx + 1, n)) else None
  }

  /**
    `get_prev_idx`: the location before `idx`; a connected path wraps from the
    first location to the last, an open one has nothing before its first.
  */
  function PrevIdx(line: FlexLine, idx: nat): (r: Option<nat>)
    requires |line.locations| > 0
    ensures r.Some? ==> r.value < |line.locations|
    ensures r.None? <==> !IsConnected(line) && idx == 0
    ensures 0 < idx <= |line.locations| ==> r == Some(idx - 1)
    ensures IsConnected(line) && idx == 0 ==> r == Some(|line.locations| - 1)
  {
    var n := |line.locations|;
    if IsConnected(line) || idx > 0 then Some(Wrap(idx + n - 1, n)) else None
  }

  /** Stepping forward and then back (or back and then forward) returns to the start. */
  lemma NextPrevInverse(line: FlexLine, idx: nat, j: nat)
    requires 0 < |line.locations| && idx < |line.locations| && j < |line.locations|
    ensures NextIdx(line, idx) == Some(j) <==> PrevIdx(line, j) == Some(idx)
  {
    var n := |line.locations|;
    if NextIdx(line, idx) == Some(j) {
      if idx < n - 1 {
        assert j == idx + 1;
      } else {
        assert j == 0;
      }
    }
    if PrevIdx(line, j) == Some(idx) {
      if j > 0 {
        assert idx == j - 1;
      } else {
        assert idx == n - 1;
      }
    }
  }

  /** On a connected path every location has both neighbours; on an open one all but the ends do. */
  lemma InteriorHasNeighbours(line: FlexLine, idx: nat)
    requires |line.locations| > 0 && idx < |line.locations|
    ensures NextIdx(line, idx).Some? && PrevIdx(line, idx).Some?
      <==> IsConnected(line) || 0 < idx < |line.locations| - 1
  {
  }
}

=== FILE: theorems.dfy ===
/**
  Whole-mesh properties of `make_mesh`: the shape of the triangle list for
  each corner style and connection style, when the mesh builder fails, the
  closing of a connected path into a ring, and the mesh of a two-point line.
*/
module MeshTheorems {
  import opened Options
  import opened Geometry
  import opened Style
  import opened Buffers
  import opened Corners
  import opened Caps
  import opened Mesh

  /** Every location emits: no interior corner (and no corner of a connected path) is straight. */
  predicate AllCornersEmit(line: FlexLine)
    requires Valid(line)
  {
    forall i :: 0 <= i < |line.locations| ==> CornerEmits(line, i)
  }

  // ---------------------------------------------------------------- the loop

  /**
    With rounded corners every round of the loop continues one strip, from
    the start pair of an open path or from the placeholders of a connected one.
  */
  lemma {:induction false} RoundedPrefixIsStrip(line: FlexLine, trig: Trig, k: nat)
    requires Valid(line) && line.cornerStyle.Rounded? && k <= |line.locations|
    ensures k > 0 || IsConnected(line) ==> IsStrip(CornersUpTo(line, trig, k, Start(line)))
  {
    if k > 0 {
      var index := k - 1;
      var before := CornersUpTo(line, trig, index, Start(line));
      if PrevIdx(line, index).Some? {
        RoundedPrefixIsStrip(line, trig, index);
      }
      RoundedStep(line, trig, index, before);
      assert CornersUpTo(line, trig, k, Start(line)) == AddCorner(line, trig, index, before);
    } else if IsConnected(line) {
      StartIsStrip(line);
    }
  }

  /** The placeholders of a connected path are a strip of one pair and no quad. */
  lemma StartIsStrip(line: FlexLine)
    requires Valid(line) && IsConnected(line)
    ensures IsStrip(Start(line))
  {
    assert |Start(line).vertices| / 2 - 1 == 0;
  }

  /** One round of the loop with rounded corners: the first location starts the strip and every other one continues it. */
  lemma RoundedStep(line: FlexLine, trig: Trig, index: nat, before: Buffers)
    requires Valid(line) && line.cornerStyle.Rounded? && index < |line.locations|
    requires PrevIdx(line, index).Some? ==> IsStrip(before)
    requires PrevIdx(line, index).None? ==> before == Empty
    ensures IsStrip(AddCorner(line, trig, index, before))
  {
    if PrevIdx(line, index).Some? && NextIdx(line, index).None? {
      AddCornerEndKeepsStrip(line, trig, index, before);
    }
  }

  /** One round of the loop on an open sharp path whose corners all turn. */
  lemma SharpOpenStep(line: FlexLine, trig: Trig, index: nat, before: Buffers)
    requires Valid(line) && line.cornerStyle.Sharp? && !IsConnected(line)
    requires 0 < index < |line.locations| && CornerEmits(line, index)
    requires before.indices == Strip(0, index - 1) && |before.vertices| == 2 * index
    ensures var after := AddCorner(line, trig, index, before);
      after.indices == Strip(0, index) && |after.vertices| == 2 * index + 2
  {
    if NextIdx(line, index).None? {
      SharpOpenEnd(line, trig, index, before);
    } else {
      SharpOpenInterior(line, trig, index, before);
    }
  }

  lemma SharpOpenEnd(line: FlexLine, trig: Trig, index: nat, before: Buffers)
    requires Valid(line) && !IsConnected(line) && index == |line.locations| - 1 && index > 0
    requires before.indices == Strip(0, index - 1) && |before.vertices| == 2 * index
    ensures var after := AddCorner(line, trig, index, before);
      after.indices == Strip(0, index) && |after.vertices| == 2 * index + 2
  {
    AddCornerEndQuad(line, trig, index, before);
    StripAppend(index, index - 1, |before.vertices|);
  }

  lemma SharpOpenInterior(line: FlexLine, trig: Trig, index: nat, before: Buffers)
    requires Valid(line) && line.cornerStyle.Sharp? && !IsConnected(line)
    requires 0 < index < |line.locations| - 1 && CornerEmits(line, index)
    requires before.indices == Strip(0, index - 1) && |before.vertices| == 2 * index
    ensures var after := AddCorner(line, trig, index, before);
      after.indices == Strip(0, index) && |after.vertices| == 2 * index + 2
  {
    AddCornerSharpQuad(line, trig, index, before);
    StripAppend(index, PrevIdx(line, index).value, |before.vertices|);
  }

  /** The quad from pair `index - 1` to pair `index`, however its corners are numbered, extends the strip. */
  lemma StripAppend(index: nat, p: nat, m: nat)
    requires index >= 1 && p == index - 1 && m == 2 * index
    ensures Strip(0, index - 1) + Quad(2 * p, 2 * p + 1, 2 * index, 2 * index + 1) == Strip(0, index)
    ensures Strip(0, index - 1) + Quad(m - 2, m - 1, m, m + 1) == Strip(0, index)
  {
    StripLastQuad(index);
  }

  /**
    On an open sharp path whose interior corners all turn, location `i`'s pair
    is pair number `i` of the buffer and the quads join each pair to the next.
  */
  lemma {:induction false} SharpOpenPrefix(line: FlexLine, trig: Trig, k: nat)
    requires Valid(line) && line.cornerStyle.Sharp? && !IsConnected(line) && AllCornersEmit(line)
    requires 1 <= k <= |line.locations|
    ensures var b := CornersUpTo(line, trig, k, Start(line));
      b.indices == Strip(0, k - 1) && |b.vertices| == 2 * k
  {
    var index := k - 1;
    var before := CornersUpTo(line, trig, index, Start(line));
    assert CornersUpTo(line, trig, k, Start(line)) == AddCorner(line, trig, index, before);
    if k > 1 {
      SharpOpenPrefix(line, trig, index);
      SharpOpenStep(line, trig, index, before);
    }
  }

  /**
    The triangles of a connected sharp path after `k` rounds: none at first,
    then the quad from the last location to location 0 followed by a strip
    from pair 0.
  */
  function RingPrefix(n: nat, k: nat): seq<nat>
    requires n >= 1
  {
    if k == 0 then [] else Quad(2 * n - 2, 2 * n - 1, 0, 1) + Strip(0, k - 1)
  }


  /** One round of the loop on a connected sharp path whose corners all turn. */
  lemma SharpClosedStep(line: FlexLine, trig: Trig, index: nat, before: Buffers)
    requires Valid(line) && line.cornerStyle.Sharp? && IsConnected(line)
    requires index < |line.locations| && CornerEmits(line, index)
    requires var n := |line.locations|;
      |before.vertices| == 2 * index + 2
      && before.indices == RingPrefix(n, index)
    ensures var after := AddCorner(line, trig, index, before);
      |after.vertices| == 2 * index + 4 && after.indices == RingPrefix(|line.locations|, index + 1)
  {
    AddCornerSharpQuad(line, trig, index, before);
    RingPrefixStep(line, index);
  }

  /**
    The quad a connected sharp corner writes, from the previous location's
    pair to its own, extends the ring's triangles by one round.
  */
  lemma RingPrefixStep(line: FlexLine, index: nat)
    requires IsConnected(line) && index < |line.locations|
    ensures var n, p := |line.locations|, PrevIdx(line, index).value;
      RingPrefix(n, index) + Quad(2 * p, 2 * p + 1, 2 * index, 2 * index + 1) == RingPrefix(n, index + 1)
  {
    RingPrefixAppend(|line.locations|, index, PrevIdx(line, index).value);
  }

  /** Location 0 closes the ring with the quad from the last pair; every later location extends the strip. */
  lemma RingPrefixAppend(n: nat, index: nat, p: nat)
    requires index < n && p == (if index == 0 then n - 1 else index - 1)
    ensures RingPrefix(n, index) + Quad(2 * p, 2 * p + 1, 2 * index, 2 * index + 1) == RingPrefix(n, index + 1)
  {
    if index == 0 {
      assert Strip(0, 0) == [];
    } else {
      assert Strip(0, index) == Strip(0, index - 1) + Quad(2 * p, 2 * p + 1, 2 * index, 2 * index + 1);
    }
  }


  /**
    On a connected sharp path whose corners all turn, location `i`'s pair lands
    behind the two placeholders but is addressed as pair `i`: the first quad
    joins the last location to location 0, the rest form a strip from pair 0.
  */
  lemma {:induction false} SharpClosedPrefix(line: FlexLine, trig: Trig, k: nat)
    requires Valid(line) && line.cornerStyle.Sharp? && IsConnected(line) && AllCornersEmit(line)
    requires k <= |line.locations|
    ensures var b := CornersUpTo(line, trig, k, Start(line));
      var n := |line.locations|;
      |b.vertices| == 2 * k + 2
      && b.indices == RingPrefix(n, k)
  {
    if k > 0 {
      var index := k - 1;
      SharpClosedPrefix(line, trig, index);
      var before := CornersUpTo(line, trig, index, Start(line));
      assert CornerEmits(line, index);
      SharpClosedStep(line, trig, index, before);
    }
  }

  /** No location before `k` has emitted. */
  predicate NoneEmitBefore(line: FlexLine, k: nat)
    requires Valid(line) && k <= |line.locations|
  {
    forall i :: 0 <= i < k ==> !CornerEmits(line, i)
  }

  /** Silence before location `k` is silence before `k - 1` and at `k - 1`. */
  lemma NoneEmitBeforeStep(line: FlexLine, k: nat)
    requires Valid(line) && 0 < k <= |line.locations|
    ensures NoneEmitBefore(line, k) == (NoneEmitBefore(line, k - 1) && !CornerEmits(line, k - 1))
  {
    if NoneEmitBefore(line, k - 1) && !CornerEmits(line, k - 1) {
      forall i | 0 <= i < k
        ensures !CornerEmits(line, i)
      {
        if i < k - 1 {
          assert !CornerEmits(line, i);
        }
      }
    }
  }

  /**
    The vertex count of a connected path's buffers, given whether every
    location so far has been silent: only the placeholders while silent;
    otherwise a further pair at least, and with rounded corners three.
  */
  predicate ConnectedShape(line: FlexLine, count: int, silent: bool) {
    count >= 2
    && (count == 2 <==> silent)
    && (!silent ==> count >= 4)
    && (line.cornerStyle.Rounded? && !silent ==> count >= 8)
  }

  /** The buffers once the loop has visited the first `k` locations. */
  function Visited(line: FlexLine, trig: Trig, k: nat): Buffers
    requires Valid(line) && k <= |line.locations|
  {
    CornersUpTo(line, trig, k, Start(line))
  }

  /** The shape of a connected path's buffers after the first `k` locations. */
  predicate ShapedUpTo(line: FlexLine, trig: Trig, k: nat)
    requires Valid(line) && k <= |line.locations|
  {
    ConnectedShape(line, |Visited(line, trig, k).vertices|, NoneEmitBefore(line, k))
  }

  /** The shape carries over one location: a silent one adds nothing, an emitting one a pair (three when rounded). */
  lemma ShapeStep(line: FlexLine, count: int, next: int, silent: bool, nextSilent: bool, emits: bool)
    requires nextSilent == (silent && !emits)
    requires !emits ==> next == count
    requires emits ==> next >= count + 2
    requires emits && line.cornerStyle.Rounded? ==> next >= count + 6
    ensures ConnectedShape(line, count, silent) ==> ConnectedShape(line, next, nextSilent)
  {
  }

  /** A property of the first `j` rounds that holds before the loop and survives each round holds after `k` rounds. */
  lemma {:induction false} StepsReach(p: nat -> bool, k: nat)
    requires p(0)
    requires forall j: nat :: j < k && p(j) ==> p(j + 1)
    ensures p(k)
  {
    if k > 0 {
      StepsReach(p, k - 1);
    }
  }

  /** Before the loop a connected path holds only its two placeholders. */
  lemma ConnectedStart(line: FlexLine, trig: Trig)
    requires Valid(line) && IsConnected(line)
    ensures ShapedUpTo(line, trig, 0)
  {
  }

  /** One round of the loop on a connected path keeps the buffers' shape. */
  lemma ConnectedStep(line: FlexLine, trig: Trig, j: nat, k: nat)
    requires Valid(line) && IsConnected(line) && k == j + 1 <= |line.locations|
    ensures ShapedUpTo(line, trig, j) ==> ShapedUpTo(line, trig, k)
  {
    var before := CornersUpTo(line, trig, j, Start(line));
    var after := CornersUpTo(line, trig, k, Start(line));
    assert after == AddCorner(line, trig, j, before);
    AddCornerEmits(line, trig, j, before);
    NoneEmitBeforeStep(line, k);
    ShapeStep(line, |before.vertices|, |after.vertices|, NoneEmitBefore(line, j), NoneEmitBefore(line, k),
              CornerEmits(line, j));
  }

  /**
    A connected path keeps only its placeholders exactly as long as no location
    has emitted; once one has, a further pair follows them (three with
    rounded corners).
  */
  lemma ConnectedPrefixEmpty(line: FlexLine, trig: Trig, k: nat)
    requires Valid(line) && IsConnected(line) && k <= |line.locations|
    ensures ShapedUpTo(line, trig, k)
  {
    var shaped := (j: nat) => j <= |line.locations| && ShapedUpTo(line, trig, j);
    ConnectedStart(line, trig);
    forall j: nat | j < k && shaped(j)
      ensures shaped(j + 1)
    {
      ConnectedStep(line, trig, j, j + 1);
    }
    StepsReach(shaped, k);
  }

  // ---------------------------------------------------------------- bands and rings

  /** Quad number `j` of an index list: its six indices from `6 * j` on. */
  function QuadAt(indices: seq<nat>, j: nat): seq<nat>
    requires 6 * j + 6 <= |indices|
  {
    indices[6 * j .. 6 * j + 6]
  }

  /** Some quad of the list joins pair `p` (vertices `2p`, `2p + 1`) to pair `q`. */
  predicate Joins(indices: seq<nat>, p: nat, q: nat) {
    exists j :: 0 <= j < |indices| && 6 * j + 6 <= |indices| && QuadAt(indices, j) == Quad(2 * p, 2 * p + 1, 2 * q, 2 * q + 1)
  }

  /** Some quad of the list joins pair `p` to the pair after it. */
  predicate JoinsNext(indices: seq<nat>, p: nat) {
    Joins(indices, p, p + 1)
  }

  /** An open band of `pairs` vertex pairs: one quad per pair and the next, and no other quads. */
  predicate OpenBand(indices: seq<nat>, pairs: nat) {
    pairs >= 1 && |indices| == 6 * (pairs - 1)
    && forall p :: 0 <= p < pairs - 1 ==> JoinsNext(indices, p)
  }

  /** A closed ring of `pairs` vertex pairs: the band, plus one quad from the last pair back to pair 0. */
  predicate ClosedRing(indices: seq<nat>, pairs: nat) {
    pairs >= 2 && |indices| == 6 * pairs
    && (forall p :: 0 <= p < pairs - 1 ==> JoinsNext(indices, p))
    && Joins(indices, pairs - 1, 0)
  }

  /** A quad of the second part of a list is a quad of the whole list. */
  lemma JoinsAfter(a: seq<nat>, b: seq<nat>, m: nat, p: nat, q: nat)
    requires |a| == 6 * m && Joins(b, p, q)
    ensures Joins(a + b, p, q)
  {
    var j :| 0 <= j < |b| && 6 * j + 6 <= |b| && QuadAt(b, j) == Quad(2 * p, 2 * p + 1, 2 * q, 2 * q + 1);
    assert QuadAt(a + b, m + j) == QuadAt(b, j);
  }

  /** A quad of the first part of a list is a quad of the whole list. */
  lemma JoinsBefore(a: seq<nat>, b: seq<nat>, p: nat, q: nat)
    requires Joins(a, p, q)
    ensures Joins(a + b, p, q)
  {
    var j :| 0 <= j < |a| && 6 * j + 6 <= |a| && QuadAt(a, j) == Quad(2 * p, 2 * p + 1, 2 * q, 2 * q + 1);
    assert QuadAt(a + b, j) == QuadAt(a, j);
  }

  /** A strip of `k` quads is an open band of `k + 1` pairs. */
  lemma StripIsOpenBand(k: nat)
    ensures OpenBand(Strip(0, k), k + 1)
  {
    forall p | 0 <= p < k
      ensures JoinsNext(Strip(0, k), p)
    {
      StripJoinsNext(k, p);
    }
  }

  /** Quad number `p` of a strip joins pair `p` to pair `p + 1`. */
  lemma StripJoinsNext(k: nat, p: nat)
    requires p < k
    ensures JoinsNext(Strip(0, k), p)
  {
    var q := Strip(0, k)[6 * p .. 6 * p + 6];
    StripQuad(0, k, p);
    assert q == Quad(2 * p, 2 * p + 1, 2 * (p + 1), 2 * (p + 1) + 1);
    assert QuadAt(Strip(0, k), p) == q;
  }

  /** An open band stays joined when more quads follow it. */
  lemma BandBefore(a: seq<nat>, b: seq<nat>, pairs: nat)
    requires OpenBand(a, pairs)
    ensures forall p :: 0 <= p < pairs - 1 ==> JoinsNext(a + b, p)
  {
    forall p | 0 <= p < pairs - 1
      ensures JoinsNext(a + b, p)
    {
      assert JoinsNext(a, p);
      JoinsBefore(a, b, p, p + 1);
    }
  }

  /** An open band stays joined when whole quads precede it. */
  lemma BandAfter(a: seq<nat>, b: seq<nat>, m: nat, pairs: nat)
    requires |a| == 6 * m && OpenBand(b, pairs)
    ensures forall p :: 0 <= p < pairs - 1 ==> JoinsNext(a + b, p)
  {
    forall p | 0 <= p < pairs - 1
      ensures JoinsNext(a + b, p)
    {
      assert JoinsNext(b, p);
      JoinsAfter(a, b, m, p, p + 1);
    }
  }

  /** An open band followed by the quad from its last pair back to pair 0 is a ring. */
  lemma BandThenCloseIsRing(band: seq<nat>, pairs: nat)
    requires pairs >= 2 && OpenBand(band, pairs)
    ensures ClosedRing(band + Quad(2 * pairs - 2, 2 * pairs - 1, 0, 1), pairs)
  {
    var close := Quad(2 * pairs - 2, 2 * pairs - 1, 0, 1);
    BandBefore(band, close, pairs);
    ClosingQuadJoins(pairs);
    JoinsAfter(band, close, pairs - 1, pairs - 1, 0);
  }

  /** So is the same band preceded by that quad. */
  lemma CloseThenBandIsRing(band: seq<nat>, pairs: nat)
    requires pairs >= 2 && OpenBand(band, pairs)
    ensures ClosedRing(Quad(2 * pairs - 2, 2 * pairs - 1, 0, 1) + band, pairs)
  {
    var close := Quad(2 * pairs - 2, 2 * pairs - 1, 0, 1);
    BandAfter(close, band, 1, pairs);
    ClosingQuadJoins(pairs);
    JoinsBefore(close, band, pairs - 1, 0);
  }

  lemma ClosingQuadJoins(pairs: nat)
    requires pairs >= 1
    ensures Joins(Quad(2 * pairs - 2, 2 * pairs - 1, 0, 1), pairs - 1, 0)
  {
    var close := Quad(2 * pairs - 2, 2 * pairs - 1, 0, 1);
    assert QuadAt(close, 0) == close;
  }

  /** Every index of a ring of `pairs` pairs names one of its `2 * pairs` vertices. */
  lemma RingIndicesBounded(pairs: nat)
    requires pairs >= 2
    ensures var ring := Strip(0, pairs - 1) + Quad(2 * pairs - 2, 2 * pairs - 1, 0, 1);
      forall k :: 0 <= k < |ring| ==> ring[k] < 2 * pairs
    ensures var ring := Quad(2 * pairs - 2, 2 * pairs - 1, 0, 1) + Strip(0, pairs - 1);
      forall k :: 0 <= k < |ring| ==> ring[k] < 2 * pairs
  {
    var strip := Strip(0, pairs - 1);
    var close := Quad(2 * pairs - 2, 2 * pairs - 1, 0, 1);
    forall k | 0 <= k < |strip + close|
      ensures (strip + close)[k] < 2 * pairs
    {
      if k < |strip| {
        assert (strip + close)[k] == strip[k];
      }
    }
    forall k | 0 <= k < |close + strip|
      ensures (close + strip)[k] < 2 * pairs
    {
      if k >= |close| {
        assert (close + strip)[k] == strip[k - 6];
      }
    }
  }

  /**
    The closing step's three redirections turn the last quad of a list, which
    joins its last two pairs, into the quad from the second-to-last of them
    back to pair 0: the pair moved into the placeholder slots.
  */
  lemma RedirectLastQuad(front: seq<nat>, a: nat, b: nat, c: nat, d: nat, r: seq<nat>)
    requires var s := front + Quad(a, b, c, d); var k := |s|;
      |r| == k && r[..k - 4] == s[..k - 4]
      && r[k - 4] == 0 && r[k - 3] == s[k - 3] && r[k - 2] == 1 && r[k - 1] == 0
    ensures r == front + Quad(a, b, 0, 1)
  {
    var s := front + Quad(a, b, c, d);
    var k := |s|;
    var target := front + Quad(a, b, 0, 1);
    forall i | 0 <= i < k
      ensures r[i] == target[i]
    {
      if i < k - 4 {
        assert r[i] == r[..k - 4][i] == s[..k - 4][i] == s[i];
      }
    }
  }

  // ---------------------------------------------------------------- whole meshes

  /** Every index is below `count`: it names one of `count` vertices. */
  predicate IndicesBelow(indices: seq<nat>, count: int) {
    forall k :: 0 <= k < |indices| ==> indices[k] < count
  }

  /** The mesh of an open sharp path: `pairs` vertex pairs, each joined to the next by a quad. */
  predicate IsSharpBand(vertices: seq<Vec2>, indices: seq<nat>, pairs: nat) {
    pairs >= 1 && |vertices| == 2 * pairs && indices == Strip(0, pairs - 1)
    && OpenBand(indices, pairs) && IndicesBelow(indices, |vertices|)
  }

  /** A strip of `pairs` pairs is such a band. */
  lemma StripIsSharpBand(b: Buffers, pairs: nat)
    requires pairs >= 1 && b.indices == Strip(0, pairs - 1) && |b.vertices| == 2 * pairs
    ensures IsSharpBand(b.vertices, b.indices, pairs)
  {
    StripIsOpenBand(pairs - 1);
  }

  /**
    An open path with sharp corners that all turn: one pair per location, the
    quads join each location's pair to the next one's, and every index names
    a vertex.
  */
  lemma SharpOpenMesh(line: FlexLine, trig: Trig)
    requires Valid(line) && line.cornerStyle.Sharp? && !IsConnected(line) && AllCornersEmit(line)
    ensures var r := MakeMesh(line, trig);
      r.Some? && IsSharpBand(r.value.vertices, r.value.indices, |line.locations|)
  {
    var n := |line.locations|;
    SharpOpenPrefix(line, trig, n);
    StripIsSharpBand(Body(line, trig), n);
    OpenMeshIsCappedBody(line, trig);
  }

  /**
    The body of an open path with rounded corners, straight or not: one band
    of pairs from the start pair to the end pair.
  */
  lemma RoundedOpenBody(line: FlexLine, trig: Trig)
    requires Valid(line) && line.cornerStyle.Rounded? && !IsConnected(line)
    ensures var body := Body(line, trig);
      IsStrip(body) && OpenBand(body.indices, |body.vertices| / 2) && InBounds(body)
  {
    RoundedPrefixIsStrip(line, trig, |line.locations|);
    var body := Body(line, trig);
    StripIsWellFormed(body);
    StripIsOpenBand(|body.vertices| / 2 - 1);
  }

  /** An open path's mesh is its body with both caps added and the colours filled in. */
  lemma OpenMeshIsCappedBody(line: FlexLine, trig: Trig)
    requires Valid(line) && !IsConnected(line)
    ensures var r := MakeMesh(line, trig);
      var capped := CalcCaps(line, trig, Body(line, trig));
      r.Some? && r.value.vertices == capped.vertices && r.value.indices == capped.indices
  {
  }

  /**
    An open path with rounded corners: the band of the body, then the end cap
    and the start cap as `add_cap` writes them, every index naming a vertex.
  */
  lemma RoundedOpenMesh(line: FlexLine, trig: Trig)
    requires Valid(line) && line.cornerStyle.Rounded? && !IsConnected(line)
    ensures var body := Body(line, trig);
      var r := MakeMesh(line, trig);
      var n := |body.vertices|;
      var t := CapTriangles(line.cornerStyle.resolution);
      OpenBand(body.indices, n / 2)
      && r.Some? && |r.value.vertices| == n + 2 * (t + 1)
      && r.value.indices == CappedIndices(body.indices, n, t)
      && InBounds(r.value)
  {
    var body := Body(line, trig);
    RoundedOpenBody(line, trig);
    OpenMeshIsCappedBody(line, trig);
    CalcCapsIndices(line, trig, body);
  }

  /**
    The mesh of a connected sharp path: `pairs` vertex pairs whose quads,
    the closing quad from the last pair to pair 0 first, form a ring.
  */
  predicate IsSharpRing(vertices: seq<Vec2>, indices: seq<nat>, pairs: nat) {
    pairs >= 2 && |vertices| == 2 * pairs
    && indices == Quad(2 * pairs - 2, 2 * pairs - 1, 0, 1) + Strip(0, pairs - 1)
    && ClosedRing(indices, pairs) && IndicesBelow(indices, |vertices|)
  }

  /** Closing the body of a connected sharp path moves its last pair to the front and keeps its quads: a ring. */
  lemma SharpClosing(line: FlexLine, body: Buffers, n: nat)
    requires line.cornerStyle.Sharp? && n >= 2 && Lockstep(body)
    requires |body.vertices| == 2 * n + 2 && body.indices == RingPrefix(n, n)
    ensures var closed := CloseRing(line, body);
      closed.Some? && IsSharpRing(closed.value.vertices, closed.value.indices, n)
  {
    StripIsOpenBand(n - 1);
    CloseThenBandIsRing(Strip(0, n - 1), n);
    RingIndicesBounded(n);
  }

  /**
    A connected path with sharp corners that all turn: `n` pairs whose quads
    close into a ring. Location `i`'s pair ends up as pair `i + 1` (the last
    location's as pair 0) while the quads address it as pair `i`; the shift
    is the same for every quad, so each still joins two neighbouring locations.
  */
  lemma SharpClosedMesh(line: FlexLine, trig: Trig)
    requires Valid(line) && line.cornerStyle.Sharp? && IsConnected(line) && AllCornersEmit(line)
    ensures var r := MakeMesh(line, trig);
      r.Some? && IsSharpRing(r.value.vertices, r.value.indices, |line.locations|)
  {
    var n := |line.locations|;
    SharpClosedPrefix(line, trig, n);
    SharpClosing(line, Body(line, trig), n);
    ConnectedMeshIsClosedBody(line, trig);
  }

  /**
    A closed rounded ring: its vertices form pairs, the strip runs from pair
    0 to the last pair and the quad from the last pair back to pair 0, and
    every index names one of its vertices.
  */
  predicate IsRoundedRing(vertices: seq<Vec2>, indices: seq<nat>) {
    |vertices| >= 4 && |vertices| % 2 == 0
    && indices == RoundedRingIndices(|vertices| / 2)
    && ClosedRing(indices, |vertices| / 2) && IndicesBelow(indices, |vertices|)
  }

  /** The triangles of a rounded ring: the strip from pair 0 to the last pair, then the closing quad. */
  function RoundedRingIndices(pairs: nat): seq<nat>
    requires pairs >= 1
  {
    Strip(0, pairs - 1) + Quad(2 * pairs - 2, 2 * pairs - 1, 0, 1)
  }

  /**
    Closing a strip of `m` pairs (the placeholders and `m - 1` emitted pairs)
    leaves a ring of `m - 1` pairs.
  */
  lemma ClosingRoundedStrip(line: FlexLine, b: Buffers, m: nat)
    requires line.cornerStyle.Rounded? && m >= 3
    requires |b.vertices| == 2 * m && Lockstep(b) && b.indices == Strip(0, m - 1)
    ensures var r := CloseRing(line, b);
      r.Some? && |r.value.vertices| == 2 * (m - 1) && IsRoundedRing(r.value.vertices, r.value.indices)
  {
    var closed := CloseRing(line, b).value;
    var pairs := m - 1;
    StripLastQuad(pairs);
    RedirectLastQuad(Strip(0, pairs - 1), 2 * pairs - 2, 2 * pairs - 1, 2 * pairs, 2 * pairs + 1, closed.indices);
    RingFromIndices(closed.vertices, closed.indices, pairs);
  }

  /** The last quad of a strip from pair 0 joins its last two pairs. */
  lemma StripLastQuad(pairs: nat)
    requires pairs >= 1
    ensures Strip(0, pairs) == Strip(0, pairs - 1) + Quad(2 * pairs - 2, 2 * pairs - 1, 2 * pairs, 2 * pairs + 1)
  {
  }

  /** Any `pairs` vertex pairs carrying the ring's triangles form a rounded ring. */
  lemma RingFromIndices(vertices: seq<Vec2>, indices: seq<nat>, pairs: nat)
    requires pairs >= 2 && |vertices| == 2 * pairs && indices == RoundedRingIndices(pairs)
    ensures IsRoundedRing(vertices, indices)
  {
    assert |vertices| / 2 == pairs;
    StripIsOpenBand(pairs - 1);
    BandThenCloseIsRing(Strip(0, pairs - 1), pairs);
    RingIndicesBounded(pairs);
  }

  /** The body of a connected path with rounded corners: a strip, and at least four pairs once a corner has emitted. */
  lemma RoundedClosedBody(line: FlexLine, trig: Trig)
    requires Valid(line) && line.cornerStyle.Rounded? && IsConnected(line)
    ensures var body := Body(line, trig);
      IsStrip(body) && (|body.vertices| == 2 || |body.vertices| >= 8) && Lockstep(body)
  {
    RoundedPrefixIsStrip(line, trig, |line.locations|);
    ConnectedPrefixEmpty(line, trig, |line.locations|);
  }

  /** A connected path's mesh is its closed body with the colours filled in. */
  lemma ConnectedMeshIsClosedBody(line: FlexLine, trig: Trig)
    requires Valid(line) && IsConnected(line)
    ensures var r := MakeMesh(line, trig);
      var closed := CloseRing(line, Body(line, trig));
      (r.Some? <==> closed.Some?)
      && (r.Some? ==> r.value.vertices == closed.value.vertices && r.value.indices == closed.value.indices)
  {
  }

  /** Closing a strip that is either the placeholders alone or at least four pairs. */
  lemma ClosedStripIsRing(line: FlexLine, body: Buffers)
    requires line.cornerStyle.Rounded? && IsStrip(body) && Lockstep(body)
    requires |body.vertices| == 2 || |body.vertices| >= 8
    ensures var closed := CloseRing(line, body);
      closed.Some? ==> |closed.value.vertices| == |body.vertices| - 2 && IsRoundedRing(closed.value.vertices, closed.value.indices)
  {
    var m := |body.vertices| / 2;
    if |body.vertices| >= 8 {
      assert |body.vertices| == 2 * m;
      ClosingRoundedStrip(line, body, m);
    }
  }

  /**
    A connected path with rounded corners: unless every corner is straight,
    the pairs of all the corners' arcs close into a ring, the last pair
    taking the placeholders' slots.
  */
  lemma RoundedClosedMesh(line: FlexLine, trig: Trig)
    requires Valid(line) && line.cornerStyle.Rounded? && IsConnected(line)
    ensures var r := MakeMesh(line, trig);
      r.Some? ==> |r.value.vertices| == |Body(line, trig).vertices| - 2 && IsRoundedRing(r.value.vertices, r.value.indices)
  {
    RoundedClosedBody(line, trig);
    ClosedStripIsRing(line, Body(line, trig));
    ConnectedMeshIsClosedBody(line, trig);
  }

  /**
    The source fails on a connected path exactly when no corner emits
    anything: only the placeholders are left to move, and the second pop
    leaves nothing at slot 1.
  */
  lemma ConnectedMeshFails(line: FlexLine, trig: Trig)
    requires Valid(line) && IsConnected(line)
    ensures MakeMesh(line, trig).None? <==> forall i :: 0 <= i < |line.locations| ==> !CornerEmits(line, i)
  {
    var n := |line.locations|;
    ConnectedPrefixEmpty(line, trig, n);
    if line.cornerStyle.Rounded? {
      RoundedPrefixIsStrip(line, trig, n);
    }
  }

  // ---------------------------------------------------------------- two points

  /**
    A sharp open line through two points: the start pair, the end pair, and
    one quad joining them.
  */
  lemma TwoPointSharpMesh(line: FlexLine, trig: Trig)
    requires Valid(line) && |line.locations| == 2
    requires line.cornerStyle.Sharp? && !IsConnected(line)
    ensures var (l0, r0) := StartPair(line, trig);
      var (l1, r1) := EndPair(line, trig);
      var r := MakeMesh(line, trig);
      r.Some? && r.value.vertices == [l0, r0, l1, r1] && r.value.indices == [0, 1, 2, 1, 3, 2]
  {
    var body := Body(line, trig);
    assert body == EndCorner(line, trig, StartCorner(line, trig, Empty));
    SharpOpenMesh(line, trig);
    OpenMeshIsCappedBody(line, trig);
    assert Strip(0, 1) == [0, 1, 2, 1, 3, 2];
  }

  /**
    A band between two parallel offsets of the segment p0 -> p1, on the
    left of the segment by `lw` and on its right by `rw` along the normal `n`:
    when `n` points to the left and the band has positive width, both
    triangles of the quad wind counter-clockwise.
  */
  lemma BandWindsCounterClockwise(p0: Vec2, p1: Vec2, n: Vec2, lw: real, rw: real)
    requires PerpDot(Sub(p1, p0), n) > 0.0 && lw + rw > 0.0
    ensures var l0, r0 := Add(p0, Scale(n, lw)), Sub(p0, Scale(n, rw));
      var l1, r1 := Add(p1, Scale(n, lw)), Sub(p1, Scale(n, rw));
      SignedArea2(l0, r0, l1) > 0.0 && SignedArea2(r0, r1, l1) > 0.0
  {
    var d := Sub(p1, p0);
    var w := lw + rw;
    var turn := PerpDot(d, n);
    assert SignedArea2(Add(p0, Scale(n, lw)), Sub(p0, Scale(n, rw)), Add(p1, Scale(n, lw))) == w * turn;
    assert SignedArea2(Sub(p0, Scale(n, rw)), Sub(p1, Scale(n, rw)), Add(p1, Scale(n, lw))) == w * turn;
    assert w * turn > 0.0;
  }

  /**
    With an exact square root, two distinct points and a positive width, both
    triangles of a sharp two-point line wind counter-clockwise, so the stroke
    faces the viewer.
  */
  lemma TwoPointWindsCounterClockwise(line: FlexLine, trig: Trig)
    requires |line.locations| == 2 && line.width > 0.0
    requires line.locations[0] != line.locations[1]
    requires InvSqrtAt(trig.invSqrt, Dot(Sub(line.locations[1], line.locations[0]), Sub(line.locations[1], line.locations[0])))
    ensures var (l0, r0) := StartPair(line, trig);
      var (l1, r1) := EndPair(line, trig);
      SignedArea2(l0, r0, l1) > 0.0 && SignedArea2(r0, r1, l1) > 0.0
  {
    var p0, p1 := line.locations[0], line.locations[1];
    var d := Sub(p1, p0);
    assert d != Zero;
    UnitPerpIsUnitNormal(trig.invSqrt, d);
    EndPairsSpanWidth(line, trig);
    AlignmentSplitsWidth(line.alignment, line.width);
    BandWindsCounterClockwise(p0, p1, UnitPerp(trig.invSqrt, d), LineLeftWidth(line), LineRightWidth(line));
  }
}
